=== FILE: README.md ===
# gmailOps rule engine, modelled in Dafny

gmailOps applies user-written rules to e-mail fetched from Gmail. A rule
file (JSON) names a rule type ("All" or "Any"), a list of conditions
(`field`, `predicate`, `value`) over the headers "From", "Subject",
"Message" and "Received Date/Time", and a list of actions ("mark" as
read/unread, "move" to a label). A driver reads every stored message,
evaluates each rule collection against it, and runs the actions of the
collections that match. The repository holds three generations of the
engine and an interactive generator of rule files:

- `newfetch.py`, the engine in use: case-insensitive string predicates
  that never match an empty header, dates parsed with `strptime` and
  compared with "now minus N days / N·30 days", a case-insensitive rule
  type, and actions that change labels through the Gmail API;
- `ruleengine.py`, the earlier engine: case-sensitive predicates, dates
  compared as raw text, an exact "All", and actions that only report;
- `gmailops.py`, another earlier engine: "All", "Any", anything else never matches,
  no actions;
- `rule_gen.py`, the prompt loop that writes a rule file.

The modules:

| module | file | what it holds |
|---|---|---|
| `Wrappers` | wrappers.dfy | `Option`, `Result` |
| `Text` | text.dfy | ASCII `str.lower`, substring occurrence (`in`), lexicographic `<`, `str.split()`, `str.replace` |
| `Numerals` | numerals.dfy | `str.isdigit`, `int()` on a token, and their inverses |
| `DateText` | datetext.dfy | the date-time shape of RFC 5322 section 3.3 as the format `"%a, %d %b %Y %H:%M:%S %z"` reads it, calendar arithmetic, and a formatter that inverts the parser |
| `Schema` | schema.dfy | messages as header maps, rule files, conditions, actions, the `RuleCollection` constructor |
| `NewFetch` | newfetch.dfy | `newfetch.py`: rule and collection evaluation with its exceptions, the Gmail label store as a `Mailbox` class, and the driver loop |
| `RuleEngine` | ruleengine.dfy | `ruleengine.py` and its module-level example |
| `GmailOps` | gmailops.dfy | `gmailops.py` and the unit tests of `helper_scripts/testing.py` |
| `RuleGen` | rulegen.dfy | `rule_gen.py`: the tables, the prompts as methods reading the typed lines from a position, and line-at-a-time reference definitions of what each prompt and `main` return |
| `Variants` | variants.dfy | how the generator and the three engines fit together and where they differ |

Python exceptions become values: `NewFetch.Error` names the exception
classes the engine can raise (`KeyError`, `AttributeError`, `ValueError`,
`IndexError`, `UnboundLocalError`, and `HttpError` for a Gmail call on a
message the provider does not hold). The current time is a parameter
`now`, in microseconds since the Unix epoch. Console input is the list of
lines the user types, read from a position that every `input()` advances
by one; reading past the last line is `input()`'s EOFError, a `None` that
ends the generator without writing a rule.

## Model

| member | source | states |
|---|---|---|
| `Text.Lower` | newfetch.py:30-36 | `str.lower` keeps the length and folds each character on its own |
| `Text.LowerIdempotent` | newfetch.py:30-36 | folding twice is folding once |
| `Text.ContainsIff` | ruleengine.py:20-23 | `p in s` holds exactly when `p` occurs at some index of `s` |
| `Text.LexTrichotomy` | ruleengine.py:29-33 | string `<` is irreflexive and asymmetric, and of two different strings one is below the other |
| `Text.Words` | newfetch.py:53 | `split()` yields only non-empty words without whitespace; which words, by `WordsOfWord` and `WordsSplitAtSpace` |
| `Text.WordsOfPair` | newfetch.py:53-55 | splitting `w + " " + u` gives back `[w, u]` |
| `Text.WordsOfWord` | newfetch.py:53 | a non-empty text without whitespace splits into itself alone |
| `Text.WordsSplitAtSpace` | newfetch.py:53 | a whitespace character separates: the words of `a + [c] + b` are the words of `a` followed by those of `b`; with `WordsOfWord` this fixes `split()` on every text as its maximal non-space runs in order, so " 5  D" reads as ["5", "D"] |
| `Text.ReplaceAbsent` | newfetch.py:43-44 | `replace` leaves a text without the pattern unchanged |
| `Text.RemoveSuffix` | newfetch.py:43-44 | removing " (UTC)" from a text with " (UTC)" appended gives back the text when the text has no "(" |
| `Text.ReplaceCharAt` | rule_gen.py:122 | replacing one character by another keeps the length and changes exactly the matching positions |
| `Numerals.NatTextRoundTrip` | rule_gen.py:44-45 | the digit string of n reads back as n |
| `Numerals.IntText` | newfetch.py:54 | a count's decimal text is non-empty and made of digits and "-" |
| `Numerals.IntTextRoundTrip` | newfetch.py:54 | `int()` of a count's decimal text is that count |
| `DateText.MonthNumber` | newfetch.py:39-47 | `%b` accepts exactly the twelve English abbreviations, each naming its month |
| `DateText.Weekday` | newfetch.py:39-47 | the weekday of a date is one of seven |
| `DateText.ParseTail` | newfetch.py:39-47 | every date-time the shared part of both formats accepts exists in the calendar, with an offset within a day |
| `DateText.ParseRfc5322` | newfetch.py:39-47 | every date-time the first format accepts is valid |
| `DateText.ParseBracketedUtc` | newfetch.py:40-47 | every date-time the second format accepts is valid |
| `DateText.FormatRfc5322` | newfetch.py:39 | the formatter writes 31 characters: a header in the first format with a two-digit day |
| `DateText.FieldsRoundTrip` | newfetch.py:39-47 | the characters after the day of a formatted header read back as year, month, clock and zone |
| `DateText.TailRoundTrip` | newfetch.py:39-47 | a formatted date without its weekday parses back to the same date-time |
| `DateText.RoundTrip` | newfetch.py:39-47 | every valid date-time survives formatting and parsing with the first format |
| `DateText.UnixEpochText` | helper_scripts/testing.py:28 | "Thu, 01 Jan 1970 00:00:00 +0000" parses as 1970-01-01 00:00:00 at offset 0 |
| `DateText.UnixEpochInstant` | newfetch.py:65-67 | that date-time is instant zero |
| `DateText.OffsetShiftsInstant` | newfetch.py:64-67 | the zone offset is subtracted when instants are compared |
| `Schema.Load` | newfetch.py:73-79 | a missing rule type reads as "", missing rules and actions as empty lists, present ones unchanged |
| `Numerals.ParseInt` | newfetch.py:54 | `int()` accepts only an optional sign followed by one or more digits, reads a digit string as its decimal value, and gives a negative number only after "-" |
| `NewFetch.StringPredicate` | newfetch.py:29-36 | only the four listed predicates can hold; "contains" fails for an operand longer than the header and "equals" holds only on equal lengths; an empty operand is contained in every header, equals only the empty one and is "not equals" to every other |
| `NewFetch.ReceivedInstant` | newfetch.py:39-47 | a header has an instant exactly when the first format reads it once " (UTC)" is removed, and that instant is a whole number of seconds |
| `NewFetch.Threshold` | newfetch.py:53-61 | an operand without words raises IndexError; a first word that is not an integer raises ValueError; a single integer word raises IndexError; an integer count with any unit other than D and M leaves the threshold unbound, and only such a unit does; the threshold is at or before now exactly when the count is not negative |
| `NewFetch.EvaluateDate` | newfetch.py:38-67 | a missing header raises AttributeError and an unparseable one is no match; True and UnboundLocalError arise only under the two date predicates, and a parsed header with an unbound threshold under either of them raises UnboundLocalError; every other exception is the operand's |
| `NewFetch.ReadReceived` | newfetch.py:39-51 | the format loop: a missing header raises AttributeError; otherwise the result is the instant of the header with " (UTC)" removed, read with the first format, or no match |
| `NewFetch.EvaluateRule` | newfetch.py:14-69 | an unsupported field never matches, a string field never raises, and an empty or missing string header never matches |
| `NewFetch.StringPredicateMeaning` | newfetch.py:29-36 | `contains` is occurrence of the folded operand in the folded header, `equals` is folded equality, the other two are their exact negations, an unlisted predicate never holds |
| `NewFetch.StringFieldRule` | newfetch.py:27-36 | on a non-empty string header the rule's result is the string predicate of that header |
| `NewFetch.CaseInsensitive` | newfetch.py:28-36 | changing the letter case of operand or header never changes a string rule's result |
| `NewFetch.UnparseableDateIsNoMatch` | newfetch.py:46-51 | a date header that does not parse is no match, whatever the operand |
| `NewFetch.DatePredicatesComplement` | newfetch.py:64-67 | "less than" is instant ≥ threshold and "greater than" is instant < threshold, so exactly one holds |
| `NewFetch.ThresholdOfOperand` | newfetch.py:53-61 | "N D" is N days before now and "N M" is 30·N days before now |
| `NewFetch.UtcSuffixIgnored` | newfetch.py:43-44 | a header with " (UTC)" appended reads as the same instant |
| `NewFetch.NoParenthesis` | newfetch.py:39-44 | a formatted header holds no "(", so the suffix removal cannot touch it |
| `NewFetch.SecondFormatNeverUsed` | newfetch.py:39-51 | a text in the second format is read by that format, yet the engine reads it as no match: the first format's failure returns before the second is tried |
| `NewFetch.Matches` | newfetch.py:81-83 | with no rules the answer is whether the rule type folds to "all"; a single rule's answer, exception included, is the collection's under every rule type |
| `NewFetch.CombineOutcomes` | newfetch.py:82-83 | `all` answers True only when every rule does, `any` answers False only when every rule does, and an exception is the one some rule raised |
| `NewFetch.CombineWithoutErrors` | newfetch.py:82-83 | when no rule raises, `all` is the conjunction and `any` the disjunction of the rules' results |
| `NewFetch.SelectsConjunction` | newfetch.py:81-83 | for any number of rules that do not raise, a type that lower-cases to "all" matches exactly when every rule holds, and any other type exactly when some rule holds |
| `NewFetch.AllStopsAtFirstFalse` | newfetch.py:82-83 | `all` answers False at the first false rule, whatever the later rules would raise |
| `NewFetch.AnyStopsAtFirstTrue` | newfetch.py:82-83 | `any` answers True at the first true rule, whatever the later rules would raise |
| `NewFetch.EmptyRuleList` | newfetch.py:76-83 | with no rules a collection matches exactly when its rule type folds to "all"; a missing rule type never matches |
| `NewFetch.MarkEffect` | newfetch.py:97-121 | a record without "ID" raises KeyError; "read" or "unread" raises the HTTP error exactly when the provider does not hold the id; any other value changes nothing and raises nothing; otherwise only that message's labels change, and only in UNREAD: absent after "read", present after "unread" |
| `NewFetch.MoveEffect` | newfetch.py:123-140 | a record without "ID" raises KeyError; an unknown id fails exactly then; otherwise the label is added to that message and nothing else changes |
| `NewFetch.DispatchEffect` | newfetch.py:88-95 | a type other than mark and move changes nothing; mark and move raise KeyError on a record without "ID"; the set of messages is kept |
| `NewFetch.ActionsEffect` | newfetch.py:88-95 | the set of messages is kept; on a record without "ID" no label changes and the only possible exception is KeyError |
| `NewFetch.DispatchEffects` | newfetch.py:88-140 | mark read removes UNREAD, mark unread adds it, move adds the label, any other value or type changes nothing |
| `NewFetch.ActionsInOrder` | newfetch.py:88-95 | running `a + b` is running `a` and then, unless it raised, `b` |
| `NewFetch.ActionsFrame` | newfetch.py:105-138 | actions change the labels of the acted-on message only and never the set of messages |
| `NewFetch.Mailbox.constructor` | newfetch.py:101-102 | the provider starts from the given label state |
| `NewFetch.Mailbox.Modify` | newfetch.py:110-138 | a modify of an unknown message raises and changes nothing; otherwise it removes then adds the given labels of that message only |
| `NewFetch.Mark` | newfetch.py:97-121 | marking is the label change of the mark effect, a record without "ID" raising KeyError |
| `NewFetch.Move` | newfetch.py:123-140 | moving adds the label of the move effect, a record without "ID" raising KeyError |
| `NewFetch.ExecuteActions` | newfetch.py:88-95 | the loop leaves the label state and exception the actions' effect in order prescribes |
| `NewFetch.ActionsOnlyOnMatch` | newfetch.py:81-86 | no label changes unless the collection matches; on a match the labels become those the actions leave; True only when the match's actions all ran |
| `NewFetch.Evaluate` | newfetch.py:81-86 | evaluation leaves the labels and result of the collection's effect |
| `NewFetch.BatchAppend` | newfetch.py:167-184 | processing `a + b` is processing `a` and then `b` from the labels `a` left |
| `NewFetch.BatchSize` | newfetch.py:167-184 | one try block runs per message and collection: the outcome list, the model's own record of how each try block ended (the driver itself only prints failures), has one entry for each |
| `NewFetch.BatchIsolation` | newfetch.py:179-184 | the outcomes of message i are a full pass over every collection from the labels the earlier messages left, whatever they raised |
| `NewFetch.EvaluateEach` | newfetch.py:179-184 | one message against every collection, each in its own try block |
| `NewFetch.RunBatch` | newfetch.py:167-184 | the driver's nested loop ends with the labels and outcomes of the batch effect |
| `RuleEngine.EvaluateRule` | ruleengine.py:7-36 | an unsupported field never matches; the date field matches only under the two comparisons, and never when header and operand are equal |
| `RuleEngine.StringPredicates` | ruleengine.py:19-27 | case-sensitive occurrence and equality, with exact negations, also for an empty header |
| `RuleEngine.MissingAndUnknownFields` | ruleengine.py:8-17 | a missing header reads as "", an unsupported field never matches |
| `RuleEngine.DatePredicatesLexicographic` | ruleengine.py:29-33 | date predicates compare the header text with the operand as strings: at most one holds, and neither exactly when they are equal |
| `RuleEngine.UnlistedPredicateNeverMatches` | ruleengine.py:19-36 | a predicate the chain does not list never matches |
| `RuleEngine.AllAnyQuantifiers` | ruleengine.py:48-49 | `all` is the universal and `any` the existential over the rules |
| `RuleEngine.Matches` | ruleengine.py:47-52 | with no rules only "All" matches; a single rule decides alone under every rule type |
| `RuleEngine.SelectsConjunction` | ruleengine.py:47-52 | exactly "All" selects conjunction; every other rule type, "all" included, selects disjunction |
| `RuleEngine.ActionsInOrder` | ruleengine.py:54-61 | the reports of `a + b` are those of `a` followed, unless it raised, by those of `b` |
| `RuleEngine.ActionsWithId` | ruleengine.py:54-69 | on a record with an "ID" no action raises, and report i is the i-th mark or move printed on that id: `Marking(id, value)` for a mark, `Moving(id, folder)` for a move |
| `RuleEngine.Dispatched` | ruleengine.py:58-61 | only mark and move are dispatched |
| `RuleEngine.DispatchedAppend` | ruleengine.py:58-61 | every mark and move is kept and every other action dropped, in list order: dispatching `a + b` is dispatching `a` then `b`, and a single action is kept exactly when it is a mark or a move |
| `RuleEngine.ExecuteActions` | ruleengine.py:54-61 | the loop prints the reports of the actions in order and stops at the first KeyError |
| `RuleEngine.Evaluate` | ruleengine.py:47-52 | no match prints nothing; a match prints its actions' reports and answers True unless one raised |
| `RuleEngine.Example` | ruleengine.py:73-107 | the sample rule matches the sample message and reports marking 123 unread |
| `GmailOps.Evaluate` | gmailops.py:47-53 | only "All" and "Any" can match; with no rules only "All" matches; under either, a single rule decides alone |
| `GmailOps.ThreeWayRuleType` | gmailops.py:47-53 | "All" is conjunction, "Any" is disjunction, anything else never matches |
| `GmailOps.EmptyRuleList` | gmailops.py:47-53 | with no rules, only "All" matches |
| `GmailOps.ContainsTest` | helper_scripts/testing.py:6-9 | "example.com" is contained in "user@example.com" |
| `GmailOps.DoesNotContainTest` | helper_scripts/testing.py:11-14 | "example.com" is not contained in "user@example.org" |
| `GmailOps.EqualsTest` | helper_scripts/testing.py:16-19 | equal texts are equal |
| `GmailOps.NotEqualsTest` | helper_scripts/testing.py:21-24 | different texts are not equal |
| `GmailOps.DateTests` | helper_scripts/testing.py:26-34 | compared as text, the epoch header is not "less than" "1 D" and is "greater than" it |
| `RuleGen.CreateRule` | rule_gen.py:3-11 | the record carries each argument under its key |
| `RuleGen.FieldChoice` | rule_gen.py:19-30 | exactly the one-character answers "1" to "4" choose a field, and the field chosen is one of the four |
| `RuleGen.FieldChoiceTable` | rule_gen.py:19-28 | the choice is the entry of `field_mapping`: "1" From, "2" Subject, "3" Message, "4" Received Date/Time, and no other answer chooses |
| `RuleGen.PredicatesForTable` | rule_gen.py:33-38 | exactly the four fields have a predicate list, and each field's list is its entry in `allowed_predicates` |
| `RuleGen.PredicateChoice` | rule_gen.py:42-47 | an answer chooses exactly when it is all digits with value between 1 and the number of options, and chooses the option at that position |
| `RuleGen.PredicateChoiceRoundTrip` | rule_gen.py:40-45 | typing the number printed beside an option chooses that option |
| `RuleGen.UnitChoice` | rule_gen.py:54-58 | exactly the one-character answers "1" and "2" choose, and the choice is a time unit |
| `RuleGen.UnitChoiceTable` | rule_gen.py:54-58 | the accepted answers are the members of `["1", "2"]`; "1" is Days and "2" is Months |
| `RuleGen.DateOperand` | rule_gen.py:59-60 | the operand starts with the count as typed, is two characters longer, and ends in " D" or " M" exactly when the unit starts with D or M |
| `RuleGen.DateOperandUnits` | rule_gen.py:58-60 | the operand is the count followed by " D" for days and " M" for months |
| `RuleGen.ActionChoice` | rule_gen.py:73-80 | exactly the one-character answers "1" to "3" choose an action |
| `RuleGen.ChosenAction` | rule_gen.py:73-83 | "1" marks read, "2" marks unread, "3" moves to the label typed next |
| `RuleGen.ActionTableLookup` | rule_gen.py:73-83 | the accepted keys are those of `action_mapping`, and the action chosen is its entry, with the label id put in for "3" |
| `RuleGen.FileName` | rule_gen.py:122 | the file name is five characters longer than the rule name, ends in ".json", and has no space before it |
| `RuleGen.FileNameShape` | rule_gen.py:122 | each space of the rule name becomes "_" and every other character stays |
| `RuleGen.FirstAccepted` | rule_gen.py:25-30 | a prompt's answer is a line its question accepts, the last line it read; it answers nothing only after reading to the end of input |
| `RuleGen.FirstAcceptedSkips` | rule_gen.py:25-30 | every line read before the accepted one was refused, and with no answer every remaining line was refused |
| `RuleGen.ReadLine` | rule_gen.py:26 | `input()` returns the line at the position and moves past it; at the end of input it raises EOFError, a `None` |
| `RuleGen.Prompt` | rule_gen.py:25-30 | the retry loop returns the first accepted line and stops right after it |
| `RuleGen.PromptForField` | rule_gen.py:13-30 | the field prompt answers with the first accepted field, one of the four |
| `RuleGen.PromptForPredicate` | rule_gen.py:32-47 | the predicate prompt answers with the first accepted option, one of the field's allowed predicates |
| `RuleGen.ValueAnswer` | rule_gen.py:49-64 | a date value ends in " D" or " M"; any other field's value is the next line as typed; an answer reads at least one line |
| `RuleGen.PromptForValue` | rule_gen.py:49-64 | the value prompt returns the value and position of the reference answer: the unit retry loop and then the count for the date field, one line for the others |
| `RuleGen.ActionAnswer` | rule_gen.py:66-85 | the action prompt answers with a mark or a move and reads at least one line for it |
| `RuleGen.ActionAnswerByPrompt` | rule_gen.py:78-83 | the action answer is the retry loop over the menu followed, for key "3", by the label line |
| `RuleGen.PromptForAction` | rule_gen.py:66-85 | the action prompt returns the action and position of the reference answer |
| `RuleGen.EntryFrom` | rule_gen.py:94-102 | reading an entry from any stage stays within the input and reads at least one line for an answer |
| `RuleGen.FieldStage` | rule_gen.py:94-95 | an entry starts with the retry loop of `prompt_for_field` and goes on with the predicates of the field it accepted |
| `RuleGen.PredicateStage` | rule_gen.py:95-96 | the predicate stage is the retry loop of `prompt_for_predicate` over the field's list, followed by the unit for the date field and the value otherwise |
| `RuleGen.UnitStage` | rule_gen.py:50-59 | the unit stage is the unit retry loop, followed by the count |
| `RuleGen.ValueStage` | rule_gen.py:96-102 | the entry takes the value `prompt_for_value` returns, with the field and predicate already chosen |
| `RuleGen.EntryFromAuthored` | rule_gen.py:94-102 | from any stage `main` can reach, the entry read has a listed field, one of its allowed predicates, and for the date field a value ending in a unit |
| `RuleGen.EntryAuthored` | rule_gen.py:94-102 | every entry read is well formed in that sense and reads at least one line |
| `RuleGen.PromptForEntry` | rule_gen.py:94-102 | one pass of the first loop returns the entry and position of the reference answer, and the entry is well formed |
| `RuleGen.MoreEntriesStep` | rule_gen.py:103-107 | a pass ends the loop with no list at end of input, with the list on an answer other than yes, and goes round again on yes |
| `RuleGen.MoreEntriesGrows` | rule_gen.py:92-107 | the loop keeps the entries it has and adds at least one |
| `RuleGen.MoreEntriesAuthored` | rule_gen.py:92-107 | every entry the loop adds is well formed |
| `RuleGen.EntriesAuthored` | rule_gen.py:92-107 | the first loop yields one or more entries, each well formed |
| `RuleGen.PromptForEntries` | rule_gen.py:92-107 | the first loop returns the list and position of the reference answer; end of input anywhere, "Add another field?" included, gives no list |
| `RuleGen.MoreActionsStep` | rule_gen.py:111-116 | a pass ends the loop with no list at end of input, with the list on an answer other than yes, and goes round again on yes |
| `RuleGen.MoreActionsChosen` | rule_gen.py:109-116 | the loop keeps the actions it has, adds at least one, and each is a mark or a move |
| `RuleGen.ActionsChosen` | rule_gen.py:109-116 | the second loop yields one or more actions, each a mark or a move |
| `RuleGen.PromptForActions` | rule_gen.py:109-116 | the second loop returns the list and position of the reference answer; end of input anywhere, "Add another action?" included, gives no list |
| `RuleGen.SaysYesIsLowerYes` | rule_gen.py:106 | the answer continues a loop exactly when it lower-cases to "yes" |
| `RuleGen.AuthorAnswerShape` | rule_gen.py:87-122 | a saved rule carries the first three lines as name, description and type, one or more well-formed entries and one or more marks or moves, and is saved under the file name made from its name |
| `RuleGen.EndOfInputWritesNothing` | rule_gen.py:114 | input that ends where "Add another action?" waits writes no rule |
| `RuleGen.AuthorRule` | rule_gen.py:87-126 | `main` returns the reference answer for the whole input: the record of the first three lines, the entries and the actions, and its file name; nothing when input ends early |
| `Variants.CreatedRuleLoads` | rule_gen.py:3-11 | a generated rule loads into an engine collection with every field it was created with |
| `Variants.GeneratedOperandThreshold` | rule_gen.py:58-60 | a generated date operand with an integer count is the threshold the engine computes |
| `Variants.UncheckedCount` | rule_gen.py:59-60 | the generator accepts a non-numeric count that the engine's `int()` rejects with ValueError |
| `Variants.DoesNotEqualNeverMatches` | rule_gen.py:34-36 | the generator's "does not equal" is no engine predicate, so such a rule never matches |
| `Variants.GeneratedDatePredicatesKnown` | rule_gen.py:37 | every generated date predicate is one the engine reads |
| `Variants.CaseFoldingDiffers` | newfetch.py:28-30 | "important" is in "Important email" for the current engine and not for the earlier one |
| `Variants.EmptyFieldDiffers` | newfetch.py:27 | on a missing header "does not contain" with a non-empty operand never matches in the current engine and always matches in the earlier one |
| `Variants.CollectionTestFolded` | testing.py:18-27 | the "All" collection test holds in the current engine |
| `Variants.CollectionTestExact` | testing.py:18-27 | the same test fails in the earlier engine |
| `Variants.RuleTypeDiffers` | newfetch.py:82 | an empty "all" collection matches in the current engine only |
| `Variants.EarlierEnginesAgree` | gmailops.py:47-53 | the two earlier engines agree on "All" and "Any" and otherwise differ exactly when some rule holds |

## Left out

- `strptime` is modelled strictly: single spaces, two-digit hour, minute and second, a one- or two-digit day, four-digit year, a `+HHMM`/`-HHMM` zone and English, case-sensitive names. Its leniencies (case-insensitive names, `Z`, `+HH:MM`, `+HHMMSS` and fractional-second zones, extra whitespace, one-digit clock fields) are not modelled.
- Text functions work character by character on ASCII rules: `str.lower`, `str.isdigit`, `str.split` and `int()` treat non-ASCII letters, digits and spaces as ordinary characters; `int()`'s underscores and surrounding spaces are not modelled.
- Instants are integers in microseconds; `timedelta`'s OverflowError for huge counts and dates before year 1 or after 9999 are not modelled.
- The engine reads the clock once per comparison; the model takes one `now` for a whole batch.
- Gmail authentication, `build`, and HTTP failures other than an unknown message id are not modelled: the provider is the `Mailbox` label map.
- Reading the JSON rule file and the SQLite rows is left out: `main` is modelled from the list of messages and collections on. A NULL column is an absent header; the integer "ID" is written as its decimal text.
- Missing keys inside a rule file are not modelled: the model's conditions and actions always carry every key, and values are strings. In the source only the condition keys are read when a rule file is loaded (newfetch.py:78-79, ruleengine.py:45); an action without "action_type" or "action_value" raises KeyError only when a matching message reaches it in `execute_actions` (newfetch.py:90-91, ruleengine.py:56-57), after the earlier actions have run.
- Console output (the prints of `newfetch.py`, the printed menus of `rule_gen.py`) is not modelled, except the reports of `ruleengine.py`'s `mark` and `move`, which are its actions' only effect.
- The `main` of `gmailops.py` and the files `fetch.py` and `sendEmail.py` are not part of this model.
- `json.dumps` and writing the rule file are not modelled: `RuleGen.AuthorRule` returns the record and the file name.
- Variants.CollectionTestFolded: testing.py builds its collection from `Rule` objects, which the constructor would subscript and fail on; the lemma states the test as intended, with the two rules given as conditions of the rule file.

=== FILE: datetext.dfy ===
/**
 * The date-time text of RFC 5322 section 3.3 as the engine reads it through
 * `strptime`: the shape "<dow>, <day> <mon> <year> <hh>:<mm>:<ss> <zone>"
 * (format "%a, %d %b %Y %H:%M:%S %z") and the bracketed variant
 * "<day> <mon> <year> <hh>:<mm>:<ss> <zone> (UTC)". An instant is the
 * number of seconds since 1970-01-01T00:00:00Z.
 */
module DateText {
  import opened Wrappers
  import opened Numerals

  /** A wall-clock date and time with its zone offset, in minutes east of UTC. */
  datatype DateTime = DateTime(
    year: int, month: int, day: int,
    hour: int, minute: int, second: int,
    offset: int)

  predicate IsLeapYear(y: int)
  {
    y % 4 == 0 && (y % 100 != 0 || y % 400 == 0)
  }

  function DaysInMonth(y: int, m: int): int
    requires 1 <= m <= 12
  {
    if m == 2 then (if IsLeapYear(y) then 29 else 28)
    else if m == 4 || m == 6 || m == 9 || m == 11 then 30
    else 31
  }

  /**
   * What `datetime` accepts: years 1 to 9999, a day that exists in its
   * month, seconds below 60, and an offset strictly within one day.
   */
  predicate Valid(t: DateTime)
  {
    && 1 <= t.year <= 9999
    && 1 <= t.month <= 12
    && 1 <= t.day <= DaysInMonth(t.year, t.month)
    && 0 <= t.hour < 24
    && 0 <= t.minute < 60
    && 0 <= t.second < 60
    && -1440 < t.offset < 1440
  }

  const WeekdayNames: seq<string> := ["Mon", "Tue", "Wed", "Thu", "Fri", "Sat", "Sun"]

  function MonthName(m: int): (s: string)
    requires 1 <= m <= 12
    ensures |s| == 3
  {
    match m
    case 1 => "Jan" case 2 => "Feb" case 3 => "Mar" case 4 => "Apr"
    case 5 => "May" case 6 => "Jun" case 7 => "Jul" case 8 => "Aug"
    case 9 => "Sep" case 10 => "Oct" case 11 => "Nov" case _ => "Dec"
  }

  /** The `%b` directive: an English month abbreviation. */
  function MonthNumber(s: string): (m: Option<int>)
    ensures m.Some? ==> 1 <= m.value <= 12 && MonthName(m.value) == s
  {
    if s == "Jan" then Some(1) else if s == "Feb" then Some(2)
    else if s == "Mar" then Some(3) else if s == "Apr" then Some(4)
    else if s == "May" then Some(5) else if s == "Jun" then Some(6)
    else if s == "Jul" then Some(7) else if s == "Aug" then Some(8)
    else if s == "Sep" then Some(9) else if s == "Oct" then Some(10)
    else if s == "Nov" then Some(11) else if s == "Dec" then Some(12)
    else None
  }

  lemma MonthRoundTrip(m: int)
    requires 1 <= m <= 12
    ensures MonthNumber(MonthName(m)) == Some(m)
  {
  }

  // ---------------------------------------------------------------------------
  // Calendar arithmetic

  /** The number of days from 1970-01-01 to the given proleptic Gregorian date. */
  function DaysFromCivil(y: int, m: int, d: int): int
    requires 1 <= m <= 12
  {
    var yy := if m <= 2 then y - 1 else y;
    var era := yy / 400;
    var yoe := yy - era * 400;
    var mp := if m > 2 then m - 3 else m + 9;
    var doy := (153 * mp + 2) / 5 + d - 1;
    var doe := yoe * 365 + yoe / 4 - yoe / 100 + doy;
    era * 146097 + doe - 719468
  }

  /** The instant the wall-clock reading denotes, in seconds since the Unix epoch. */
  function EpochSeconds(t: DateTime): int
    requires 1 <= t.month <= 12
  {
    DaysFromCivil(t.year, t.month, t.day) * 86400
      + t.hour * 3600 + t.minute * 60 + t.second
      - t.offset * 60
  }

  /** The day of the week, 0 for Monday; 1970-01-01 was a Thursday. */
  function Weekday(t: DateTime): (w: int)
    requires 1 <= t.month <= 12
    ensures 0 <= w < 7
  {
    (DaysFromCivil(t.year, t.month, t.day) + 3) % 7
  }

  // ---------------------------------------------------------------------------
  // Parsing

  const UtcSuffix := " (UTC)"

  predicate DigitsAt(s: string, i: int, n: int)
  {
    0 <= i && i + n <= |s| && forall k :: i <= k < i + n ==> IsDigit(s[k])
  }

  function Num2(s: string, i: int): (v: int)
    requires DigitsAt(s, i, 2)
    ensures 0 <= v < 100
  {
    DigitValue(s[i]) * 10 + DigitValue(s[i + 1])
  }

  function Num4(s: string, i: int): (v: int)
    requires DigitsAt(s, i, 4)
    ensures 0 <= v < 10000
  {
    Num2(s, i) * 100 + Num2(s, i + 2)
  }

  /** The separators and digit positions of " <mon> <yyyy> <hh>:<mm>:<ss> <+|-><hhmm>". */
  predicate Shaped(r: string)
  {
    && |r| == 24
    && r[0] == ' ' && r[4] == ' ' && r[9] == ' ' && r[12] == ':' && r[15] == ':'
    && r[18] == ' ' && (r[19] == '+' || r[19] == '-')
    && DigitsAt(r, 5, 4) && DigitsAt(r, 10, 2) && DigitsAt(r, 13, 2)
    && DigitsAt(r, 16, 2) && DigitsAt(r, 20, 4)
  }

  /** The numbers a shaped tail spells out, the zone read as signed minutes. */
  function Fields(day: int, month: int, r: string): DateTime
    requires Shaped(r)
  {
    var zone := Num2(r, 20) * 60 + Num2(r, 22);
    DateTime(Num4(r, 5), month, day, Num2(r, 10), Num2(r, 13), Num2(r, 16),
             if r[19] == '-' then -zone else zone)
  }

  /**
   * Everything after the day, 24 characters. The zone's minutes must be
   * below 60 and the whole offset below one day, as `%z` demands.
   */
  function ParseAfterDay(day: int, r: string): (res: Option<DateTime>)
    requires |r| == 24
    ensures res.Some? ==> Valid(res.value) && res.value.day == day
  {
    if !Shaped(r) then None
    else
      match MonthNumber(r[1..4])
      case None => None
      case Some(month) =>
        var t := Fields(day, month, r);
        if Num2(r, 22) < 60 && Valid(t) then Some(t) else None
  }

  /** "<d or dd> <mon> <yyyy> <hh>:<mm>:<ss> <zone>": the part both formats share. */
  function ParseTail(s: string): (res: Option<DateTime>)
    ensures res.Some? ==> Valid(res.value)
  {
    if |s| == 25 && IsDigit(s[0]) then ParseAfterDay(DigitValue(s[0]), s[1..])
    else if |s| == 26 && DigitsAt(s, 0, 2) then ParseAfterDay(Num2(s, 0), s[2..])
    else None
  }

  /**
   * "%a, %d %b %Y %H:%M:%S %z". The weekday name must be one of the seven
   * abbreviations but, as with `strptime`, is not checked against the date.
   */
  function ParseRfc5322(s: string): (res: Option<DateTime>)
    ensures res.Some? ==> Valid(res.value)
  {
    if |s| >= 5 && s[..3] in WeekdayNames && s[3..5] == ", " then ParseTail(s[5..])
    else None
  }

  /** "%d %b %Y %H:%M:%S %z (UTC)". */
  function ParseBracketedUtc(s: string): (res: Option<DateTime>)
    ensures res.Some? ==> Valid(res.value)
  {
    if |s| >= |UtcSuffix| && s[|s| - |UtcSuffix|..] == UtcSuffix then
      ParseTail(s[..|s| - |UtcSuffix|])
    else None
  }

  // ---------------------------------------------------------------------------
  // Formatting, the inverse of parsing

  /** Day through zone, as a mail provider writes them: two-digit day, four-digit zone. */
  function FormatTail(t: DateTime): (s: string)
    requires Valid(t)
    ensures |s| == 26
  {
    var mn := MonthName(t.month);
    var sign := if t.offset < 0 then '-' else '+';
    var a := if t.offset < 0 then -t.offset else t.offset;
    [Digit(t.day / 10), Digit(t.day % 10), ' ',
     mn[0], mn[1], mn[2], ' ',
     Digit(t.year / 100 / 10), Digit(t.year / 100 % 10), Digit(t.year % 100 / 10), Digit(t.year % 100 % 10), ' ',
     Digit(t.hour / 10), Digit(t.hour % 10), ':',
     Digit(t.minute / 10), Digit(t.minute % 10), ':',
     Digit(t.second / 10), Digit(t.second % 10), ' ',
     sign, Digit(a / 60 / 10), Digit(a / 60 % 10), Digit(a % 60 / 10), Digit(a % 60 % 10)]
  }

  /** The full header text, led by the true weekday name. */
  function FormatRfc5322(t: DateTime): (s: string)
    requires Valid(t)
    ensures |s| == 31
  {
    WeekdayNames[Weekday(t)] + ", " + FormatTail(t)
  }

  lemma Num2Of(s: string, i: int, n: int)
    requires 0 <= n < 100 && 0 <= i && i + 2 <= |s|
    requires s[i] == Digit(n / 10) && s[i + 1] == Digit(n % 10)
    ensures DigitsAt(s, i, 2) && Num2(s, i) == n
  {
  }

  lemma Num4Of(s: string, i: int, n: int)
    requires 0 <= n < 10000 && 0 <= i && i + 4 <= |s|
    requires s[i] == Digit(n / 100 / 10) && s[i + 1] == Digit(n / 100 % 10)
    requires s[i + 2] == Digit(n % 100 / 10) && s[i + 3] == Digit(n % 100 % 10)
    ensures DigitsAt(s, i, 4) && Num4(s, i) == n
  {
    Num2Of(s, i, n / 100);
    Num2Of(s, i + 2, n % 100);
  }

  /** The month name of a formatted tail reads back as its month. */
  lemma MonthOfTail(t: DateTime)
    requires Valid(t)
    ensures MonthNumber(FormatTail(t)[2..][1..4]) == Some(t.month)
  {
    var tail := FormatTail(t);
    var r := tail[2..];
    var mn := MonthName(t.month);
    assert r[1] == tail[3] == mn[0];
    assert r[2] == tail[4] == mn[1];
    assert r[3] == tail[5] == mn[2];
    assert r[1..4] == [r[1], r[2], r[3]] == mn;
    MonthRoundTrip(t.month);
  }

  /** The date's numbers read back from a formatted tail. */
  lemma DateOfTail(t: DateTime)
    requires Valid(t)
    ensures DigitsAt(FormatTail(t)[2..], 5, 4) && Num4(FormatTail(t)[2..], 5) == t.year
  {
    var r := FormatTail(t)[2..];
    Num4Of(r, 5, t.year);
  }

  /** The clock's numbers read back from a formatted tail. */
  lemma ClockOfTail(t: DateTime)
    requires Valid(t)
    ensures DigitsAt(FormatTail(t)[2..], 10, 2) && Num2(FormatTail(t)[2..], 10) == t.hour
    ensures DigitsAt(FormatTail(t)[2..], 13, 2) && Num2(FormatTail(t)[2..], 13) == t.minute
    ensures DigitsAt(FormatTail(t)[2..], 16, 2) && Num2(FormatTail(t)[2..], 16) == t.second
  {
    var r := FormatTail(t)[2..];
    Num2Of(r, 10, t.hour);
    Num2Of(r, 13, t.minute);
    Num2Of(r, 16, t.second);
  }

  /** The zone of a formatted tail reads back as the offset. */
  lemma ZoneOfTail(t: DateTime)
    requires Valid(t)
    ensures var r := FormatTail(t)[2..];
      && DigitsAt(r, 20, 4) && Num2(r, 22) < 60
      && (r[19] == '+' || r[19] == '-')
      && (if r[19] == '-' then -(Num2(r, 20) * 60 + Num2(r, 22)) else Num2(r, 20) * 60 + Num2(r, 22)) == t.offset
  {
    var r := FormatTail(t)[2..];
    var a := if t.offset < 0 then -t.offset else t.offset;
    Num2Of(r, 20, a / 60);
    Num2Of(r, 22, a % 60);
  }

  /** The characters after the day of a formatted tail read back as the fields. */
  lemma FieldsRoundTrip(t: DateTime)
    requires Valid(t)
    ensures Shaped(FormatTail(t)[2..])
    ensures MonthNumber(FormatTail(t)[2..][1..4]) == Some(t.month)
    ensures Fields(t.day, t.month, FormatTail(t)[2..]) == t
    ensures Num2(FormatTail(t)[2..], 22) < 60
  {
    SeparatorsOfTail(t);
    MonthOfTail(t);
    DateOfTail(t);
    ClockOfTail(t);
    ZoneOfTail(t);
    var r := FormatTail(t)[2..];
    assert Shaped(r);
    var zone := Num2(r, 20) * 60 + Num2(r, 22);
    assert (if r[19] == '-' then -zone else zone) == t.offset;
  }

  /** The spaces, colons and zone sign of a formatted tail sit where the parser looks for them. */
  lemma SeparatorsOfTail(t: DateTime)
    requires Valid(t)
    ensures var r := FormatTail(t)[2..];
      && |r| == 24
      && r[0] == ' ' && r[4] == ' ' && r[9] == ' ' && r[12] == ':' && r[15] == ':'
      && r[18] == ' ' && (r[19] == '+' || r[19] == '-')
  {
  }

  lemma TailRoundTrip(t: DateTime)
    requires Valid(t)
    ensures ParseTail(FormatTail(t)) == Some(t)
  {
    var tail := FormatTail(t);
    Num2Of(tail, 0, t.day);
    FieldsRoundTrip(t);
  }

  /** Every valid date-time survives formatting and parsing unchanged. */
  lemma RoundTrip(t: DateTime)
    requires Valid(t)
    ensures ParseRfc5322(FormatRfc5322(t)) == Some(t)
  {
    var w := WeekdayNames[Weekday(t)];
    var s := FormatRfc5322(t);
    assert |w| == 3;
    assert s == w + (", " + FormatTail(t));
    assert s[..3] == w;
    assert s[3..5] == ", ";
    assert s[5..] == FormatTail(t);
    TailRoundTrip(t);
  }

  lemma EpochTail()
    ensures Valid(DateTime(1970, 1, 1, 0, 0, 0, 0))
    ensures FormatTail(DateTime(1970, 1, 1, 0, 0, 0, 0)) == "01 Jan 1970 00:00:00 +0000"
  {
  }

  lemma EpochFormatted()
    ensures FormatRfc5322(DateTime(1970, 1, 1, 0, 0, 0, 0)) == "Thu, 01 Jan 1970 00:00:00 +0000"
  {
    EpochTail();
    EpochWeekday();
  }

  /** 1970-01-01 was a Thursday. */
  lemma EpochWeekday()
    ensures WeekdayNames[Weekday(DateTime(1970, 1, 1, 0, 0, 0, 0))] == "Thu"
  {
    assert DaysFromCivil(1970, 1, 1) == 0;
  }

  /** The Unix epoch, written as a mail header would write it. */
  lemma UnixEpochText()
    ensures ParseRfc5322("Thu, 01 Jan 1970 00:00:00 +0000") == Some(DateTime(1970, 1, 1, 0, 0, 0, 0))
  {
    EpochTail();
    EpochFormatted();
    RoundTrip(DateTime(1970, 1, 1, 0, 0, 0, 0));
  }

  /** 1970-01-01T00:00:00Z is instant zero. */
  lemma UnixEpochInstant()
    ensures EpochSeconds(DateTime(1970, 1, 1, 0, 0, 0, 0)) == 0
  {
  }

  /** The zone offset is subtracted: 01:00 at +0100 is the instant of 00:00 at +0000. */
  lemma OffsetShiftsInstant(t: DateTime, minutes: int)
    requires 1 <= t.month <= 12
    ensures EpochSeconds(t.(offset := t.offset + minutes)) == EpochSeconds(t) - 60 * minutes
  {
  }
}

=== FILE: gmailops.dfy ===
/**
 * Another earlier engine (gmailops.py). Its `Rule.evaluate` is the same branch
 * chain as the one in ruleengine.py and is modelled once, by
 * `RuleEngine.EvaluateRule`. Its `RuleCollection` holds only the rules and
 * the rule type, recognises exactly "All" and "Any", and runs no actions.
 */
module GmailOps {
  import opened Text
  import opened Schema
  import RuleEngine

  /** The constructor's two fields; nothing changes them afterwards. */
  datatype Collection = Collection(rules: seq<Condition>, ruleType: string)

  /** `RuleCollection.evaluate`: a pure function, so it dispatches nothing. */
  function Evaluate(rc: Collection, email: Email): (r: bool)
    ensures r ==> rc.ruleType == "All" || rc.ruleType == "Any"
    ensures rc.rules == [] ==> (r <==> rc.ruleType == "All")
    ensures |rc.rules| == 1 && (rc.ruleType == "All" || rc.ruleType == "Any") ==>
              (r <==> RuleEngine.EvaluateRule(rc.rules[0], email))
  {
    assert |rc.rules| == 1 ==> RuleEngine.AllHold(rc.rules[1..], email) && !RuleEngine.AnyHolds(rc.rules[1..], email);
    if rc.ruleType == "All" then RuleEngine.AllHold(rc.rules, email)
    else if rc.ruleType == "Any" then RuleEngine.AnyHolds(rc.rules, email)
    else false
  }

  /** "All" is conjunction, "Any" is disjunction, and any other rule type never matches. */
  lemma ThreeWayRuleType(rc: Collection, email: Email)
    ensures rc.ruleType == "All" ==>
      (Evaluate(rc, email) <==> forall i :: 0 <= i < |rc.rules| ==> RuleEngine.EvaluateRule(rc.rules[i], email))
    ensures rc.ruleType == "Any" ==>
      (Evaluate(rc, email) <==> exists i :: 0 <= i < |rc.rules| && RuleEngine.EvaluateRule(rc.rules[i], email))
    ensures rc.ruleType != "All" && rc.ruleType != "Any" ==> !Evaluate(rc, email)
  {
    RuleEngine.AllAnyQuantifiers(rc.rules, email);
  }

  /** With no rules, "All" matches and "Any" does not. */
  lemma EmptyRuleList(ruleType: string, email: Email)
    ensures Evaluate(Collection([], ruleType), email) <==> ruleType == "All"
  {
  }

  // ===========================================================================
  // The unit tests of the helper scripts, as statements about the model

  lemma ContainsTest()
    ensures RuleEngine.EvaluateRule(Condition("From", "contains", "example.com"), map["From" := "user@example.com"])
  {
    var s := "user@example.com";
    assert s[5..16] == "example.com";
    ContainsAt(s, "example.com", 5);
  }

  lemma DoesNotContainTest()
    ensures RuleEngine.EvaluateRule(Condition("From", "does not contain", "example.com"), map["From" := "user@example.org"])
  {
    var s, p := "user@example.org", "example.com";
    assert s[10] == 'l' && s[11] == 'e' && s[12] == '.' && s[13] == 'o' && s[14] == 'r' && s[15] == 'g';
    forall i | 0 <= i ensures !OccursAt(s, p, i) {
      if i + |p| <= |s| {
        assert s[i..i + |p|][10] == s[i + 10];
      }
    }
    ContainsIff(s, p);
  }

  lemma EqualsTest()
    ensures RuleEngine.EvaluateRule(Condition("From", "equals", "hello@123"), map["From" := "hello@123"])
  {
  }

  lemma NotEqualsTest()
    ensures RuleEngine.EvaluateRule(Condition("From", "not equals", "hello@123"), map["From" := "hello@1234"])
  {
  }

  /**
   * The epoch header against the operand "1 D": compared as text, "T" comes
   * after "1", so `less than` fails and `greater than` holds.
   */
  lemma DateTests()
    ensures !RuleEngine.EvaluateRule(Condition(DateField, "less than", "1 D"),
                                     map[DateField := "Thu, 01 Jan 1970 00:00:00 +0000"])
    ensures RuleEngine.EvaluateRule(Condition(DateField, "greater than", "1 D"),
                                    map[DateField := "Thu, 01 Jan 1970 00:00:00 +0000"])
  {
    var s := "Thu, 01 Jan 1970 00:00:00 +0000";
    assert s[0] == 'T';
    assert FieldValue(map[DateField := s], DateField) == s;
  }
}

=== FILE: newfetch.dfy ===
/**
 * The most complete rule engine (newfetch.py): case-insensitive string
 * predicates with an empty-value guard, relative-recency date predicates,
 * all/any combination with a case-insensitive rule type, actions that
 * change the provider's labels, and a driver that keeps going past a
 * failing message.
 *
 * The clock is a parameter: `now` is the current instant in microseconds
 * since the Unix epoch. The provider's label state is a map from message
 * id to the message's labels; a change to a message the provider does not
 * hold fails as the provider's HTTP error does.
 */
module NewFetch {
  import opened Wrappers
  import opened Text
  import opened Numerals
  import opened Schema
  import DateText

  /** The exceptions the engine raises, named after their Python classes. */
  datatype Error =
    | KeyError(key: string)      // `email['ID']` on a record without an id
    | AttributeError             // `.replace` on the None a missing date header reads as
    | ValueError(text: string)   // `int(...)` on a count that is not an integer literal
    | IndexError                 // the date operand has fewer than two words
    | UnboundLocalError          // the unit is neither D nor M, so no threshold was bound
    | HttpError(id: MessageId)   // the provider holds no message with this id

  const MicrosPerSecond := 1000000
  const MicrosPerDay := 86400 * MicrosPerSecond
  const Unread := "UNREAD"

  // ===========================================================================
  // Rule.evaluate

  /**
   * The four string predicates on the lower-cased operand and field value.
   * Any other predicate falls off the end of the branch chain; the None the
   * source then returns reads as no match.
   */
  function StringPredicate(relation: string, operand: string, fieldValue: string): (r: bool)
    ensures r ==> relation in {"contains", "does not contain", "equals", "not equals"}
    ensures relation == "contains" && |operand| > |fieldValue| ==> !r
    ensures relation == "equals" && r ==> |operand| == |fieldValue|
    ensures operand == [] ==>
      (r <==> || relation == "contains"
              || (relation == "equals" && fieldValue == [])
              || (relation == "not equals" && fieldValue != []))
  {
    var v, o := Lower(fieldValue), Lower(operand);
    ContainsIff(v, o);
    assert StartsWith(v, []);
    if relation == "contains" then Contains(v, o)
    else if relation == "does not contain" then !Contains(v, o)
    else if relation == "equals" then v == o
    else if relation == "not equals" then v != o
    else false
  }

  /** The date formats the engine lists, in order. */
  datatype DateFormat = Rfc5322 | BracketedUtc

  function ParseAs(format: DateFormat, text: string): Option<DateText.DateTime>
  {
    match format
    case Rfc5322 => DateText.ParseRfc5322(text)
    case BracketedUtc => DateText.ParseBracketedUtc(text)
  }

  /**
   * The instant of a received-date text, in microseconds: " (UTC)" is removed
   * wherever it occurs and the result is read with the first format only.
   */
  function ReceivedInstant(text: string): (r: Option<int>)
    ensures r.Some? <==> DateText.ParseRfc5322(ReplaceAll(text, DateText.UtcSuffix, "")).Some?
    ensures r.Some? ==> r.value % MicrosPerSecond == 0
  {
    match ParseAs(Rfc5322, ReplaceAll(text, DateText.UtcSuffix, ""))
    case None => None
    case Some(t) =>
      var seconds := DateText.EpochSeconds(t);
      assert (seconds * MicrosPerSecond) % MicrosPerSecond == 0;
      Some(seconds * MicrosPerSecond)
  }

  /**
   * The loop over date formats: each pass reads the header, removes
   * " (UTC)" and tries one format; a failure returns at once (Ok(None), the
   * source's `return False`), a success leaves the loop. The second format
   * is never reached.
   */
  method ReadReceived(email: Email) returns (r: Result<Option<int>, Error>)
    ensures DateField !in email ==> r == Err(AttributeError)
    ensures DateField in email ==> r == Ok(ReceivedInstant(email[DateField]))
  {
    var formats := [Rfc5322, BracketedUtc];
    var parsed: Option<DateText.DateTime> := None;
    var i := 0;
    while i < |formats| && parsed == None
      invariant 0 <= i <= |formats|
      invariant parsed == None ==> i == 0
      invariant parsed != None ==>
        DateField in email && parsed == ParseAs(Rfc5322, ReplaceAll(email[DateField], DateText.UtcSuffix, ""))
    {
      if DateField !in email {
        return Err(AttributeError);
      }
      var dateText := ReplaceAll(email[DateField], DateText.UtcSuffix, "");
      parsed := ParseAs(formats[i], dateText);
      if parsed == None {
        return Ok(None);
      }
      i := i + 1;
    }
    r := Ok(Some(DateText.EpochSeconds(parsed.value) * MicrosPerSecond));
  }

  /**
   * The threshold a date operand "<N> <U>" denotes: `now − N days` for U = D,
   * `now − 30·N days` for U = M, and Ok(None) for any other unit, where the
   * source leaves `comparison_date` unbound.
   */
  function Threshold(operand: string, now: int): (r: Result<Option<int>, Error>)
    ensures var parts := Words(operand);
      && (parts == [] ==> r == Err(IndexError))
      && (r.Ok? ==> |parts| >= 2 && ParseInt(parts[0]).Some?)
      && (r == Ok(None) ==> parts[1] != "D" && parts[1] != "M")
      && (r.Ok? && r.value.Some? ==> (r.value.value <= now <==> ParseInt(parts[0]).value >= 0))
      && (parts != [] && ParseInt(parts[0]) == None ==> r == Err(ValueError(parts[0])))
      && (|parts| == 1 && ParseInt(parts[0]).Some? ==> r == Err(IndexError))
      && (|parts| >= 2 && ParseInt(parts[0]).Some? && parts[1] != "D" && parts[1] != "M" ==> r == Ok(None))
  {
    var parts := Words(operand);
    if |parts| == 0 then Err(IndexError)
    else match ParseInt(parts[0])
      case None => Err(ValueError(parts[0]))
      case Some(n) =>
        if |parts| < 2 then Err(IndexError)
        else if parts[1] == "D" then Ok(Some(now - n * MicrosPerDay))
        else if parts[1] == "M" then Ok(Some(now - n * 30 * MicrosPerDay))
        else Ok(None)
  }

  /**
   * The date branch: the header is parsed before the operand is read, so
   * an unparseable date is no match even when the operand is malformed.
   */
  function EvaluateDate(relation: string, operand: string, email: Email, now: int): (r: Result<bool, Error>)
    ensures DateField !in email ==> r == Err(AttributeError)
    ensures DateField in email && ReceivedInstant(email[DateField]) == None ==> r == Ok(false)
    ensures r == Ok(true) || r == Err(UnboundLocalError) ==> relation == "less than" || relation == "greater than"
    ensures r.Err? && r != Err(AttributeError) && r != Err(UnboundLocalError) ==> Threshold(operand, now) == Err(r.error)
    ensures (&& DateField in email && ReceivedInstant(email[DateField]).Some?
             && Threshold(operand, now) == Ok(None)
             && (relation == "less than" || relation == "greater than"))
      ==> r == Err(UnboundLocalError)
  {
    if DateField !in email then Err(AttributeError)
    else match ReceivedInstant(email[DateField])
      case None => Ok(false)
      case Some(instant) =>
        match Threshold(operand, now)
        case Err(e) => Err(e)
        case Ok(threshold) =>
          if relation == "less than" then
            if threshold == None then Err(UnboundLocalError) else Ok(instant >= threshold.value)
          else if relation == "greater than" then
            if threshold == None then Err(UnboundLocalError) else Ok(instant < threshold.value)
          else Ok(false)
  }

  /** `Rule.evaluate`. */
  function EvaluateRule(rule: Condition, email: Email, now: int): (r: Result<bool, Error>)
    ensures !IsStringField(rule.field) && rule.field != DateField ==> r == Ok(false)
    ensures IsStringField(rule.field) ==> r.Ok?
    ensures IsStringField(rule.field) && FieldValue(email, rule.field) == "" ==> r == Ok(false)
  {
    if !IsStringField(rule.field) && rule.field != DateField then Ok(false)
    else if IsStringField(rule.field) && FieldValue(email, rule.field) != "" then
      Ok(StringPredicate(rule.relation, rule.value, FieldValue(email, rule.field)))
    else if rule.field == DateField then EvaluateDate(rule.relation, rule.value, email, now)
    else Ok(false)
  }

  /**
   * The four string predicates compare case-folded text: `contains` is
   * substring occurrence, `equals` is equality, and the other two are their
   * exact negations; any other predicate never holds.
   */
  lemma StringPredicateMeaning(relation: string, operand: string, text: string)
    ensures StringPredicate("contains", operand, text) <==> exists i :: OccursAt(Lower(text), Lower(operand), i)
    ensures StringPredicate("does not contain", operand, text) <==> !StringPredicate("contains", operand, text)
    ensures StringPredicate("equals", operand, text) <==> Lower(text) == Lower(operand)
    ensures StringPredicate("not equals", operand, text) <==> !StringPredicate("equals", operand, text)
    ensures relation !in {"contains", "does not contain", "equals", "not equals"} ==> !StringPredicate(relation, operand, text)
  {
    assert StringPredicate("contains", operand, text) == Contains(Lower(text), Lower(operand));
    ContainsIff(Lower(text), Lower(operand));
  }

  /** On a non-empty string field a rule is its string predicate on the field's text. */
  lemma StringFieldRule(rule: Condition, email: Email, now: int)
    requires IsStringField(rule.field) && FieldValue(email, rule.field) != ""
    ensures EvaluateRule(rule, email, now) == Ok(StringPredicate(rule.relation, rule.value, FieldValue(email, rule.field)))
  {
  }

  /** A string predicate's outcome depends only on the case-folded field and operand. */
  lemma CaseInsensitive(field: string, relation: string, value: string, value': string,
                        email: Email, text: string, text': string, now: int)
    requires IsStringField(field)
    requires Lower(value) == Lower(value') && Lower(text) == Lower(text')
    ensures EvaluateRule(Condition(field, relation, value), email[field := text], now)
         == EvaluateRule(Condition(field, relation, value'), email[field := text'], now)
  {
    var e, e' := email[field := text], email[field := text'];
    assert FieldValue(e, field) == text && FieldValue(e', field) == text';
    assert |text| == |Lower(text)| == |text'|;
    if text != "" {
      assert EvaluateRule(Condition(field, relation, value), e, now) == Ok(StringPredicate(relation, value, text));
      assert EvaluateRule(Condition(field, relation, value'), e', now) == Ok(StringPredicate(relation, value', text'));
    }
  }

  /** A header that fails the first format is no match, whatever the predicate and operand. */
  lemma UnparseableDateIsNoMatch(relation: string, value: string, email: Email, now: int)
    requires DateField in email && ReceivedInstant(email[DateField]) == None
    ensures EvaluateRule(Condition(DateField, relation, value), email, now) == Ok(false)
  {
  }

  /**
   * With a parsed date and a D or M operand, `less than` holds iff the
   * message is at or after the threshold and `greater than` iff it is
   * before it: exactly one of the two holds.
   */
  lemma DatePredicatesComplement(value: string, email: Email, now: int)
    requires DateField in email && ReceivedInstant(email[DateField]).Some?
    requires Threshold(value, now).Ok? && Threshold(value, now).value.Some?
    ensures var instant, threshold := ReceivedInstant(email[DateField]).value, Threshold(value, now).value.value;
      && EvaluateRule(Condition(DateField, "less than", value), email, now) == Ok(instant >= threshold)
      && EvaluateRule(Condition(DateField, "greater than", value), email, now) == Ok(instant < threshold)
  {
  }

  /** The operand "N D" is N days before now, and "N M" is 30·N days before now. */
  lemma ThresholdOfOperand(n: int, now: int)
    ensures Threshold(IntText(n) + " D", now) == Ok(Some(now - n * MicrosPerDay))
    ensures Threshold(IntText(n) + " M", now) == Ok(Some(now - n * 30 * MicrosPerDay))
  {
    var w := IntText(n);
    OperandWords(n, "D");
    assert w + " D" == w + " " + "D";
    OperandWords(n, "M");
    assert w + " M" == w + " " + "M";
  }

  /** The operand's two words are the count's text and the unit. */
  lemma OperandWords(n: int, u: string)
    requires u == "D" || u == "M"
    ensures Words(IntText(n) + " " + u) == [IntText(n), u]
    ensures ParseInt(IntText(n)) == Some(n)
  {
    var w := IntText(n);
    assert NoSpace(w) by {
      forall i | 0 <= i < |w| ensures !IsSpace(w[i]) {
        assert w[i] == '-' || IsDigit(w[i]);
      }
    }
    WordsOfPair(w, u);
    IntTextRoundTrip(n);
  }

  /** A date with " (UTC)" appended reads as the same instant. */
  lemma UtcSuffixIgnored(t: DateText.DateTime)
    requires DateText.Valid(t)
    ensures ReceivedInstant(DateText.FormatRfc5322(t) + DateText.UtcSuffix)
         == ReceivedInstant(DateText.FormatRfc5322(t))
         == Some(DateText.EpochSeconds(t) * MicrosPerSecond)
  {
    var s := DateText.FormatRfc5322(t);
    NoParenthesis(t);
    RemoveSuffix(s, DateText.UtcSuffix);
    assert !Contains(s, DateText.UtcSuffix) by {
      ContainsIff(s, DateText.UtcSuffix);
    }
    ReplaceAbsent(s, DateText.UtcSuffix, "");
    DateText.RoundTrip(t);
  }

  /** No formatted date contains an opening parenthesis. */
  lemma NoParenthesis(t: DateText.DateTime)
    requires DateText.Valid(t)
    ensures forall i :: 0 <= i < |DateText.FormatRfc5322(t)| ==> DateText.FormatRfc5322(t)[i] != '('
  {
    var w := DateText.WeekdayNames[DateText.Weekday(t)];
    var tail := DateText.FormatTail(t);
    var mn := DateText.MonthName(t.month);
    assert forall k :: 0 <= k < 3 ==> w[k] != '(';
    assert forall k :: 0 <= k < 3 ==> mn[k] != '(';
    assert forall k :: 0 <= k < |tail| ==> tail[k] != '(';
  }

  /**
   * A date in the bracketed second format is accepted by that format, yet
   * the engine reads it as unparseable: " (UTC)" is removed first, and the
   * first format's failure returns before the second is tried.
   */
  lemma SecondFormatNeverUsed(t: DateText.DateTime)
    requires DateText.Valid(t)
    ensures DateText.ParseBracketedUtc(DateText.FormatTail(t) + DateText.UtcSuffix) == Some(t)
    ensures ReceivedInstant(DateText.FormatTail(t) + DateText.UtcSuffix) == None
  {
    var tail := DateText.FormatTail(t);
    var s := tail + DateText.UtcSuffix;
    assert s[..|s| - 6] == tail;
    assert s[|s| - 6..] == DateText.UtcSuffix;
    DateText.TailRoundTrip(t);
    TailIsNotRfc5322(t);
  }

  /** A tail without its weekday is not read by the first format, " (UTC)" or not. */
  lemma TailIsNotRfc5322(t: DateText.DateTime)
    requires DateText.Valid(t)
    ensures ReceivedInstant(DateText.FormatTail(t) + DateText.UtcSuffix) == None
  {
    var tail := DateText.FormatTail(t);
    assert forall k :: 0 <= k < |tail| ==> tail[k] != '(';
    RemoveSuffix(tail, DateText.UtcSuffix);
    assert tail[..3] !in DateText.WeekdayNames by {
      assert IsDigit(tail[0]);
    }
  }

  // ===========================================================================
  // RuleCollection

  /** `all(...)` over the rules: stops at the first rule that does not hold. */
  function AllHold(rules: seq<Condition>, email: Email, now: int): Result<bool, Error>
  {
    if rules == [] then Ok(true)
    else match EvaluateRule(rules[0], email, now)
      case Err(e) => Err(e)
      case Ok(b) => if b then AllHold(rules[1..], email, now) else Ok(false)
  }

  /** `any(...)` over the rules: stops at the first rule that holds. */
  function AnyHolds(rules: seq<Condition>, email: Email, now: int): Result<bool, Error>
  {
    if rules == [] then Ok(false)
    else match EvaluateRule(rules[0], email, now)
      case Err(e) => Err(e)
      case Ok(b) => if b then Ok(true) else AnyHolds(rules[1..], email, now)
  }

  /** The rule type selects conjunction when it lower-cases to "all", disjunction otherwise. */
  predicate SelectsAll(ruleType: string)
  {
    Lower(ruleType) == "all"
  }

  function Matches(rc: RuleCollection, email: Email, now: int): (r: Result<bool, Error>)
    ensures rc.rules == [] ==> r == Ok(SelectsAll(rc.ruleType))
    ensures |rc.rules| == 1 ==> r == EvaluateRule(rc.rules[0], email, now)
  {
    assert |rc.rules| == 1 ==> AllHold(rc.rules[1..], email, now) == Ok(true) && AnyHolds(rc.rules[1..], email, now) == Ok(false);
    if SelectsAll(rc.ruleType) then AllHold(rc.rules, email, now) else AnyHolds(rc.rules, email, now)
  }

  /** When no rule raises, all/any are the conjunction/disjunction of the rules' results. */
  lemma {:induction false} CombineWithoutErrors(rules: seq<Condition>, email: Email, now: int)
    requires forall i :: 0 <= i < |rules| ==> EvaluateRule(rules[i], email, now).Ok?
    ensures AllHold(rules, email, now) == Ok(forall i :: 0 <= i < |rules| ==> EvaluateRule(rules[i], email, now).value)
    ensures AnyHolds(rules, email, now) == Ok(exists i :: 0 <= i < |rules| && EvaluateRule(rules[i], email, now).value)
  {
    if rules != [] {
      CombineWithoutErrors(rules[1..], email, now);
      assert forall i :: 1 <= i < |rules| ==> rules[1..][i - 1] == rules[i];
      if !EvaluateRule(rules[0], email, now).value {
        assert !(forall i :: 0 <= i < |rules| ==> EvaluateRule(rules[i], email, now).value);
      } else {
        assert exists i :: 0 <= i < |rules| && EvaluateRule(rules[i], email, now).value;
      }
    }
  }

  /**
   * For any number of rules that do not raise, a type that lower-cases to
   * "all" matches when every rule holds and any other type when some rule holds.
   */
  lemma SelectsConjunction(rc: RuleCollection, email: Email, now: int)
    requires forall i :: 0 <= i < |rc.rules| ==> EvaluateRule(rc.rules[i], email, now).Ok?
    ensures Lower(rc.ruleType) == "all" ==>
      Matches(rc, email, now) == Ok(forall i :: 0 <= i < |rc.rules| ==> EvaluateRule(rc.rules[i], email, now).value)
    ensures Lower(rc.ruleType) != "all" ==>
      Matches(rc, email, now) == Ok(exists i :: 0 <= i < |rc.rules| && EvaluateRule(rc.rules[i], email, now).value)
  {
    CombineWithoutErrors(rc.rules, email, now);
  }

  /**
   * What `all` and `any` answer is decided by the rules: `all` answers True
   * only when every rule holds and `any` False only when none does, and an
   * exception is the one some rule raised.
   */
  lemma {:induction false} CombineOutcomes(rules: seq<Condition>, email: Email, now: int)
    ensures AllHold(rules, email, now) == Ok(true) ==>
      forall i :: 0 <= i < |rules| ==> EvaluateRule(rules[i], email, now) == Ok(true)
    ensures AnyHolds(rules, email, now) == Ok(false) ==>
      forall i :: 0 <= i < |rules| ==> EvaluateRule(rules[i], email, now) == Ok(false)
    ensures AllHold(rules, email, now).Err? ==>
      exists i :: 0 <= i < |rules| && EvaluateRule(rules[i], email, now) == AllHold(rules, email, now)
    ensures AnyHolds(rules, email, now).Err? ==>
      exists i :: 0 <= i < |rules| && EvaluateRule(rules[i], email, now) == AnyHolds(rules, email, now)
  {
    if rules != [] {
      CombineOutcomes(rules[1..], email, now);
      assert forall i :: 1 <= i < |rules| ==> rules[1..][i - 1] == rules[i];
    }
  }

  /**
   * `all` stops at the first rule that does not hold: what the rules after
   * it would return, or raise, plays no part.
   */
  lemma {:induction false} AllStopsAtFirstFalse(rules: seq<Condition>, k: int, email: Email, now: int)
    requires 0 <= k < |rules|
    requires forall i :: 0 <= i < k ==> EvaluateRule(rules[i], email, now) == Ok(true)
    requires EvaluateRule(rules[k], email, now) == Ok(false)
    ensures AllHold(rules, email, now) == Ok(false)
  {
    if k > 0 {
      var tail := rules[1..];
      forall i | 0 <= i < k - 1
        ensures EvaluateRule(tail[i], email, now) == Ok(true)
      {
        assert tail[i] == rules[i + 1];
      }
      assert tail[k - 1] == rules[k];
      AllStopsAtFirstFalse(tail, k - 1, email, now);
      assert EvaluateRule(rules[0], email, now) == Ok(true);
    }
  }

  /** `any` stops at the first rule that holds. */
  lemma {:induction false} AnyStopsAtFirstTrue(rules: seq<Condition>, k: int, email: Email, now: int)
    requires 0 <= k < |rules|
    requires forall i :: 0 <= i < k ==> EvaluateRule(rules[i], email, now) == Ok(false)
    requires EvaluateRule(rules[k], email, now) == Ok(true)
    ensures AnyHolds(rules, email, now) == Ok(true)
  {
    if k > 0 {
      var tail := rules[1..];
      forall i | 0 <= i < k - 1
        ensures EvaluateRule(tail[i], email, now) == Ok(false)
      {
        assert tail[i] == rules[i + 1];
      }
      assert tail[k - 1] == rules[k];
      AnyStopsAtFirstTrue(tail, k - 1, email, now);
      assert EvaluateRule(rules[0], email, now) == Ok(false);
    }
  }

  /** An empty rule list matches under "all" (in any letter case) and matches nothing otherwise. */
  lemma EmptyRuleList(rc: RuleCollection, email: Email, now: int)
    requires rc.rules == []
    ensures Matches(rc, email, now) == Ok(Lower(rc.ruleType) == "all")
    ensures rc.ruleType == "" ==> Matches(rc, email, now) == Ok(false)
  {
  }

  // ===========================================================================
  // Actions: label changes on the provider

  type Labels = map<MessageId, set<Label>>

  /** `messages().modify(id, addLabelIds, removeLabelIds)` on the provider's label state. */
  function Modified(labels: Labels, id: MessageId, add: set<Label>, remove: set<Label>): Result<Labels, Error>
  {
    if id !in labels then Err(HttpError(id)) else Ok(labels[id := labels[id] - remove + add])
  }

  /** `mark`: read removes UNREAD, unread adds it, any other value changes nothing. */
  function MarkEffect(labels: Labels, email: Email, value: string): (r: Result<Labels, Error>)
    ensures IdKey !in email ==> r == Err(KeyError(IdKey))
    ensures r.Ok? ==> r.value.Keys == labels.Keys
    ensures r.Ok? && IdKey in email ==> forall id :: id in labels && id != email[IdKey] ==> r.value[id] == labels[id]
    ensures r.Ok? && IdKey in email && email[IdKey] in labels ==>
      && (value == "read" ==> Unread !in r.value[email[IdKey]])
      && (value == "unread" ==> Unread in r.value[email[IdKey]])
      && r.value[email[IdKey]] - {Unread} == labels[email[IdKey]] - {Unread}
    ensures r.Err? && IdKey in email ==> r == Err(HttpError(email[IdKey])) && email[IdKey] !in labels
    ensures IdKey in email && (value == "read" || value == "unread") ==> (r.Err? <==> email[IdKey] !in labels)
    ensures IdKey in email && value != "read" && value != "unread" ==> r == Ok(labels)
  {
    if IdKey !in email then Err(KeyError(IdKey))
    else if value == "read" then Modified(labels, email[IdKey], {}, {Unread})
    else if value == "unread" then Modified(labels, email[IdKey], {Unread}, {})
    else Ok(labels)
  }

  /** `move`: adds the label; the message keeps its other labels. */
  function MoveEffect(labels: Labels, email: Email, folder: Label): (r: Result<Labels, Error>)
    ensures IdKey !in email ==> r == Err(KeyError(IdKey))
    ensures IdKey in email ==> (r.Err? <==> email[IdKey] !in labels)
    ensures r.Ok? ==> r.value.Keys == labels.Keys
    ensures r.Ok? && IdKey in email ==> forall id :: id in labels && id != email[IdKey] ==> r.value[id] == labels[id]
    ensures r.Ok? && IdKey in email && email[IdKey] in labels ==>
      r.value[email[IdKey]] == labels[email[IdKey]] + {folder}
  {
    if IdKey !in email then Err(KeyError(IdKey))
    else Modified(labels, email[IdKey], {folder}, {})
  }

  /** One action of `execute_actions`; an unknown action type is skipped. */
  function DispatchEffect(labels: Labels, email: Email, action: Action): (r: Result<Labels, Error>)
    ensures action.actionType != "mark" && action.actionType != "move" ==> r == Ok(labels)
    ensures IdKey !in email && (action.actionType == "mark" || action.actionType == "move") ==> r == Err(KeyError(IdKey))
    ensures r.Ok? ==> r.value.Keys == labels.Keys
  {
    if action.actionType == "mark" then MarkEffect(labels, email, action.actionValue)
    else if action.actionType == "move" then MoveEffect(labels, email, action.actionValue)
    else Ok(labels)
  }

  /** The label change one action makes to a message the provider holds. */
  lemma DispatchEffects(labels: Labels, email: Email, action: Action)
    requires IdKey in email && email[IdKey] in labels
    ensures var id, r := email[IdKey], DispatchEffect(labels, email, action);
      && (action == Action("mark", "read") ==> r == Ok(labels[id := labels[id] - {Unread}]))
      && (action == Action("mark", "unread") ==> r == Ok(labels[id := labels[id] + {Unread}]))
      && (action.actionType == "move" ==> r == Ok(labels[id := labels[id] + {action.actionValue}]))
      && (action.actionType == "mark" && action.actionValue != "read" && action.actionValue != "unread" ==> r == Ok(labels))
      && (action.actionType != "mark" && action.actionType != "move" ==> r == Ok(labels))
  {
    var id := email[IdKey];
    assert labels[id] - {Unread} + {} == labels[id] - {Unread};
    assert labels[id] - {} + {Unread} == labels[id] + {Unread};
    assert labels[id] - {} + {action.actionValue} == labels[id] + {action.actionValue};
  }

  /**
   * The actions in list order; the first exception stops the rest and the
   * label changes already made stay made.
   */
  function ActionsEffect(labels: Labels, email: Email, actions: seq<Action>): (r: (Labels, Option<Error>))
    ensures r.0.Keys == labels.Keys
    ensures IdKey !in email ==> r.0 == labels && (r.1.Some? ==> r.1 == Some(KeyError(IdKey)))
    decreases |actions|
  {
    if actions == [] then (labels, None)
    else match DispatchEffect(labels, email, actions[0])
      case Err(e) => (labels, Some(e))
      case Ok(next) => ActionsEffect(next, email, actions[1..])
  }

  /** Running `a + b` is running `a` and then, unless it failed, `b`. */
  lemma {:induction false} ActionsInOrder(labels: Labels, email: Email, a: seq<Action>, b: seq<Action>)
    ensures ActionsEffect(labels, email, a + b)
         == var (mid, failure) := ActionsEffect(labels, email, a);
            if failure.Some? then (mid, failure) else ActionsEffect(mid, email, b)
    decreases |a|
  {
    if a != [] {
      assert (a + b)[0] == a[0] && (a + b)[1..] == a[1..] + b;
      match DispatchEffect(labels, email, a[0])
      case Err(e) =>
      case Ok(next) => ActionsInOrder(next, email, a[1..], b);
    } else {
      assert a + b == b;
    }
  }

  /** Actions change only the labels of the message they act on, and never the set of messages. */
  lemma {:induction false} ActionsFrame(labels: Labels, email: Email, actions: seq<Action>, other: MessageId)
    requires other in labels && (IdKey !in email || other != email[IdKey])
    ensures ActionsEffect(labels, email, actions).0.Keys == labels.Keys
    ensures ActionsEffect(labels, email, actions).0[other] == labels[other]
    decreases |actions|
  {
    if actions != [] {
      match DispatchEffect(labels, email, actions[0])
      case Err(e) =>
      case Ok(next) => ActionsFrame(next, email, actions[1..], other);
    }
  }

  /** The provider's label state, the one thing the engine changes. */
  class Mailbox {
    var labels: Labels

    constructor (labels: Labels)
      ensures this.labels == labels
    {
      this.labels := labels;
    }

    /** `service.users().messages().modify(...).execute()`. */
    method Modify(id: MessageId, add: set<Label>, remove: set<Label>) returns (err: Option<Error>)
      modifies this
      ensures id !in old(labels) ==> err == Some(HttpError(id)) && labels == old(labels)
      ensures id in old(labels) ==> err == None && labels == old(labels)[id := old(labels)[id] - remove + add]
    {
      if id !in labels {
        return Some(HttpError(id));
      }
      labels := labels[id := labels[id] - remove + add];
      err := None;
    }
  }

  /** The state and exception after a step that either succeeds or changes nothing and fails. */
  function Applied(labels: Labels, r: Result<Labels, Error>): (Labels, Option<Error>)
  {
    match r
    case Ok(next) => (next, None)
    case Err(e) => (labels, Some(e))
  }

  /** `RuleCollection.mark`. */
  method Mark(box: Mailbox, email: Email, value: string) returns (err: Option<Error>)
    modifies box
    ensures (box.labels, err) == Applied(old(box.labels), MarkEffect(old(box.labels), email, value))
  {
    if IdKey !in email {
      return Some(KeyError(IdKey));
    }
    var id := email[IdKey];
    if value == "read" {
      err := box.Modify(id, {}, {Unread});
    } else if value == "unread" {
      err := box.Modify(id, {Unread}, {});
    } else {
      err := None;
    }
  }

  /** `RuleCollection.move`. */
  method Move(box: Mailbox, email: Email, folder: Label) returns (err: Option<Error>)
    modifies box
    ensures (box.labels, err) == Applied(old(box.labels), MoveEffect(old(box.labels), email, folder))
  {
    if IdKey !in email {
      return Some(KeyError(IdKey));
    }
    err := box.Modify(email[IdKey], {folder}, {});
  }

  /** `RuleCollection.execute_actions`. */
  method ExecuteActions(box: Mailbox, actions: seq<Action>, email: Email) returns (err: Option<Error>)
    modifies box
    ensures (box.labels, err) == ActionsEffect(old(box.labels), email, actions)
  {
    var i := 0;
    while i < |actions|
      invariant 0 <= i <= |actions|
      invariant ActionsEffect(old(box.labels), email, actions) == ActionsEffect(box.labels, email, actions[i..])
    {
      var action := actions[i];
      assert actions[i..][0] == action && actions[i..][1..] == actions[i + 1..];
      if action.actionType == "mark" {
        err := Mark(box, email, action.actionValue);
      } else if action.actionType == "move" {
        err := Move(box, email, action.actionValue);
      } else {
        err := None;
      }
      if err.Some? {
        return;
      }
      i := i + 1;
    }
    err := None;
  }

  /** What evaluating one collection does: the match result and the labels afterwards. */
  function CollectionEffect(labels: Labels, rc: RuleCollection, email: Email, now: int): (Labels, Result<bool, Error>)
  {
    match Matches(rc, email, now)
    case Err(e) => (labels, Err(e))
    case Ok(matched) =>
      if !matched then (labels, Ok(false))
      else
        var (after, failure) := ActionsEffect(labels, email, rc.actions);
        (after, if failure.Some? then Err(failure.value) else Ok(true))
  }

  /** Actions run only on a match, and a collection reports True only after all its actions ran. */
  lemma ActionsOnlyOnMatch(labels: Labels, rc: RuleCollection, email: Email, now: int)
    ensures Matches(rc, email, now) != Ok(true) ==> CollectionEffect(labels, rc, email, now) == (labels, Matches(rc, email, now))
    ensures CollectionEffect(labels, rc, email, now).1 == Ok(true)
        <==> Matches(rc, email, now) == Ok(true) && ActionsEffect(labels, email, rc.actions).1 == None
    ensures Matches(rc, email, now) == Ok(true) ==>
      CollectionEffect(labels, rc, email, now).0 == ActionsEffect(labels, email, rc.actions).0
  {
  }

  /** `RuleCollection.evaluate`. */
  method Evaluate(box: Mailbox, rc: RuleCollection, email: Email, now: int) returns (r: Result<bool, Error>)
    modifies box
    ensures (box.labels, r) == CollectionEffect(old(box.labels), rc, email, now)
  {
    var matched := Matches(rc, email, now);
    if matched.Err? {
      return Err(matched.error);
    }
    if matched.value {
      var err := ExecuteActions(box, rc.actions, email);
      if err.Some? {
        return Err(err.value);
      }
      return Ok(true);
    }
    return Ok(false);
  }

  // ===========================================================================
  // The driver loop of main

  /** What one try block of the driver ends with. */
  datatype Outcome = Matched | NotMatched | Failed(error: Error)

  function OutcomeOf(r: Result<bool, Error>): Outcome
  {
    match r
    case Ok(b) => if b then Matched else NotMatched
    case Err(e) => Failed(e)
  }

  /** One message against every collection in order, each in its own try block. */
  function EmailPass(labels: Labels, email: Email, collections: seq<RuleCollection>, now: int): (Labels, seq<Outcome>)
    decreases |collections|
  {
    if collections == [] then (labels, [])
    else
      var (mid, r) := CollectionEffect(labels, collections[0], email, now);
      var (after, rest) := EmailPass(mid, email, collections[1..], now);
      (after, [OutcomeOf(r)] + rest)
  }

  /** The pass over a non-empty list is the first collection's effect and then the pass over the rest. */
  lemma EmailPassStep(labels: Labels, email: Email, collections: seq<RuleCollection>, now: int,
                      mid: Labels, r: Result<bool, Error>)
    requires collections != [] && (mid, r) == CollectionEffect(labels, collections[0], email, now)
    ensures EmailPass(labels, email, collections, now).0 == EmailPass(mid, email, collections[1..], now).0
    ensures EmailPass(labels, email, collections, now).1 == [OutcomeOf(r)] + EmailPass(mid, email, collections[1..], now).1
  {
  }

  /** Every message in order, each against every collection. */
  function BatchEffect(labels: Labels, emails: seq<Email>, collections: seq<RuleCollection>, now: int): (Labels, seq<Outcome>)
    decreases |emails|
  {
    if emails == [] then (labels, [])
    else
      var (mid, first) := EmailPass(labels, emails[0], collections, now);
      var (after, rest) := BatchEffect(mid, emails[1..], collections, now);
      (after, first + rest)
  }

  lemma {:induction false} EmailPassSize(labels: Labels, email: Email, collections: seq<RuleCollection>, now: int)
    ensures |EmailPass(labels, email, collections, now).1| == |collections|
    decreases |collections|
  {
    if collections != [] {
      var (mid, r) := CollectionEffect(labels, collections[0], email, now);
      EmailPassSize(mid, email, collections[1..], now);
    }
  }

  /** Processing `a + b` is processing `a` and then `b` from where `a` left the labels. */
  lemma {:induction false} BatchAppend(labels: Labels, a: seq<Email>, b: seq<Email>, collections: seq<RuleCollection>, now: int)
    ensures var mid := BatchEffect(labels, a, collections, now).0;
      && BatchEffect(labels, a + b, collections, now).0 == BatchEffect(mid, b, collections, now).0
      && BatchEffect(labels, a + b, collections, now).1
         == BatchEffect(labels, a, collections, now).1 + BatchEffect(mid, b, collections, now).1
    decreases |a|
  {
    if a == [] {
      assert a + b == b;
      assert [] + BatchEffect(labels, b, collections, now).1 == BatchEffect(labels, b, collections, now).1;
    } else {
      assert (a + b)[0] == a[0] && (a + b)[1..] == a[1..] + b;
      var pass := EmailPass(labels, a[0], collections, now);
      var whole := BatchEffect(pass.0, a[1..] + b, collections, now);
      var front := BatchEffect(pass.0, a[1..], collections, now);
      var back := BatchEffect(front.0, b, collections, now);
      assert BatchEffect(labels, a + b, collections, now) == (whole.0, pass.1 + whole.1);
      assert BatchEffect(labels, a, collections, now) == (front.0, pass.1 + front.1);
      BatchAppend(pass.0, a[1..], b, collections, now);
      assert whole.0 == back.0 && whole.1 == front.1 + back.1;
      assert pass.1 + whole.1 == (pass.1 + front.1) + back.1;
    }
  }

  /** The first message's outcomes open the report. */
  lemma BatchHead(labels: Labels, emails: seq<Email>, collections: seq<RuleCollection>, now: int)
    requires emails != []
    ensures var report, c := BatchEffect(labels, emails, collections, now).1, |collections|;
      c <= |report| && report[..c] == EmailPass(labels, emails[0], collections, now).1
  {
    EmailPassSize(labels, emails[0], collections, now);
  }

  /**
   * Isolation: the outcomes of message i are a full pass over all
   * collections from the labels the earlier messages left, whatever those
   * messages raised.
   */
  lemma BatchIsolation(labels: Labels, emails: seq<Email>, collections: seq<RuleCollection>, now: int, i: int)
    requires 0 <= i < |emails|
    ensures var report, c := BatchEffect(labels, emails, collections, now).1, |collections|;
      && (i + 1) * c <= |report|
      && report[i * c..(i + 1) * c]
         == EmailPass(BatchEffect(labels, emails[..i], collections, now).0, emails[i], collections, now).1
  {
    var c := |collections|;
    assert emails == emails[..i] + emails[i..];
    BatchAppend(labels, emails[..i], emails[i..], collections, now);
    var (mid, first) := BatchEffect(labels, emails[..i], collections, now);
    var rest := BatchEffect(mid, emails[i..], collections, now).1;
    BatchSize(labels, emails[..i], collections, now);
    BatchHead(mid, emails[i..], collections, now);
    assert |first| == i * c && (i + 1) * c == i * c + c;
  }

  lemma {:induction false} BatchSize(labels: Labels, emails: seq<Email>, collections: seq<RuleCollection>, now: int)
    ensures |BatchEffect(labels, emails, collections, now).1| == |emails| * |collections|
    decreases |emails|
  {
    if emails != [] {
      var (mid, first) := EmailPass(labels, emails[0], collections, now);
      EmailPassSize(labels, emails[0], collections, now);
      BatchSize(mid, emails[1..], collections, now);
      assert |emails| * |collections| == |collections| + (|emails| - 1) * |collections|;
    }
  }

  /** The inner loop of the driver: one message against every collection, each in its own try block. */
  method EvaluateEach(box: Mailbox, email: Email, collections: seq<RuleCollection>, now: int)
    returns (outcomes: seq<Outcome>)
    modifies box
    ensures (box.labels, outcomes) == EmailPass(old(box.labels), email, collections, now)
  {
    outcomes := [];
    var j := 0;
    assert collections[0..] == collections;
    while j < |collections|
      invariant 0 <= j <= |collections|
      invariant EmailPass(old(box.labels), email, collections, now).0
             == EmailPass(box.labels, email, collections[j..], now).0
      invariant EmailPass(old(box.labels), email, collections, now).1
             == outcomes + EmailPass(box.labels, email, collections[j..], now).1
    {
      assert collections[j..][0] == collections[j] && collections[j..][1..] == collections[j + 1..];
      ghost var before := box.labels;
      var r := Evaluate(box, collections[j], email, now);
      EmailPassStep(before, email, collections[j..], now, box.labels, r);
      outcomes := outcomes + [OutcomeOf(r)];
      j := j + 1;
    }
    assert collections[j..] == [] && outcomes + [] == outcomes;
  }

  /** The driver loop of `main` over the messages. */
  method RunBatch(box: Mailbox, emails: seq<Email>, collections: seq<RuleCollection>, now: int)
    returns (report: seq<Outcome>)
    modifies box
    ensures (box.labels, report) == BatchEffect(old(box.labels), emails, collections, now)
  {
    report := [];
    var i := 0;
    assert emails[0..] == emails;
    while i < |emails|
      invariant 0 <= i <= |emails|
      invariant BatchEffect(old(box.labels), emails, collections, now).0
             == BatchEffect(box.labels, emails[i..], collections, now).0
      invariant BatchEffect(old(box.labels), emails, collections, now).1
             == report + BatchEffect(box.labels, emails[i..], collections, now).1
    {
      assert emails[i..][0] == emails[i] && emails[i..][1..] == emails[i + 1..];
      var outcomes := EvaluateEach(box, emails[i], collections, now);
      report := report + outcomes;
      i := i + 1;
    }
    assert emails[i..] == [] && report + [] == report;
  }
}

=== FILE: numerals.dfy ===
/**
 * Decimal numerals as Python reads and writes them: `str.isdigit`,
 * `int(text)` on a whitespace-free token, and the decimal text of an int.
 * Digits are the ASCII digits.
 */
module Numerals {
  import opened Wrappers

  predicate IsDigit(c: char)
  {
    '0' <= c <= '9'
  }

  /** `s.isdigit()`: non-empty and made of digits only. */
  predicate IsDigits(s: string)
  {
    s != [] && forall i :: 0 <= i < |s| ==> IsDigit(s[i])
  }

  function DigitValue(c: char): (d: nat)
    requires IsDigit(c)
    ensures d < 10
  {
    c as int - '0' as int
  }

  function Digit(d: nat): (c: char)
    requires d < 10
    ensures IsDigit(c) && DigitValue(c) == d
  {
    ('0' as int + d) as char
  }

  /** The value of a run of digits, most significant first; leading zeros are allowed. */
  function NatValue(s: string): nat
    requires forall i :: 0 <= i < |s| ==> IsDigit(s[i])
  {
    if s == [] then 0 else NatValue(s[..|s| - 1]) * 10 + DigitValue(s[|s| - 1])
  }

  /** The shortest decimal text of `n`. */
  function NatText(n: nat): (s: string)
    ensures IsDigits(s)
  {
    if n < 10 then [Digit(n)] else NatText(n / 10) + [Digit(n % 10)]
  }

  /** Reading back the decimal text of `n` gives `n`. */
  lemma {:induction false} NatTextRoundTrip(n: nat)
    ensures NatValue(NatText(n)) == n
  {
    if n >= 10 {
      var s := NatText(n);
      assert s[..|s| - 1] == NatText(n / 10);
      NatTextRoundTrip(n / 10);
    }
  }

  /**
   * `int(token)` for a token without surrounding whitespace: an optional
   * sign followed by one or more digits; anything else raises ValueError,
   * which is `None` here.
   */
  function ParseInt(s: string): (r: Option<int>)
    ensures IsDigits(s) ==> r == Some(NatValue(s))
    ensures r.Some? ==> s != [] && IsDigit(s[|s| - 1]) && forall i :: 1 <= i < |s| ==> IsDigit(s[i])
    ensures r.Some? && r.value < 0 ==> s != [] && s[0] == '-'
  {
    if s != [] && (s[0] == '+' || s[0] == '-') then
      if IsDigits(s[1..]) then
        var magnitude: int := NatValue(s[1..]);
        Some(if s[0] == '-' then -magnitude else magnitude)
      else None
    else if IsDigits(s) then Some(NatValue(s))
    else None
  }

  /** `str(n)`. */
  function IntText(n: int): (s: string)
    ensures s != [] && forall i :: 0 <= i < |s| ==> s[i] == '-' || IsDigit(s[i])
  {
    if n < 0 then "-" + NatText(-n) else NatText(n)
  }

  /** `int(str(n)) == n`. */
  lemma IntTextRoundTrip(n: int)
    ensures ParseInt(IntText(n)) == Some(n)
  {
    if n < 0 {
      assert IntText(n)[1..] == NatText(-n);
      NatTextRoundTrip(-n);
    } else {
      NatTextRoundTrip(n);
    }
  }
}

=== FILE: ruleengine.dfy ===
/**
 * The earlier engine (ruleengine.py): case-sensitive string predicates
 * with no empty-value guard, date predicates that compare the raw header
 * text with the operand lexicographically, an exact "All" test for
 * conjunction, and actions that only report what they would do.
 *
 * `Rule.evaluate` here never raises: a missing header reads as "". The only
 * exception is the KeyError of an action on a record without an "ID".
 */
module RuleEngine {
  import opened Wrappers
  import opened Text
  import opened Schema

  /**
   * `Rule.evaluate`. A predicate the branch chain does not list falls off
   * its end; the None returned then reads as no match.
   */
  function EvaluateRule(rule: Condition, email: Email): (r: bool)
    ensures !IsStringField(rule.field) && rule.field != DateField ==> !r
    ensures r && rule.field == DateField ==> rule.relation == "less than" || rule.relation == "greater than"
    ensures r && rule.field == DateField ==> FieldValue(email, DateField) != rule.value
  {
    var fieldValue := FieldValue(email, rule.field);
    LexTrichotomy(fieldValue, rule.value);
    if IsStringField(rule.field) then
      if rule.relation == "contains" then Contains(fieldValue, rule.value)
      else if rule.relation == "does not contain" then !Contains(fieldValue, rule.value)
      else if rule.relation == "equals" then fieldValue == rule.value
      else if rule.relation == "not equals" then fieldValue != rule.value
      else false
    else if rule.field == DateField then
      if rule.relation == "less than" then LexLess(fieldValue, rule.value)
      else if rule.relation == "greater than" then LexLess(rule.value, fieldValue)
      else false
    else false
  }

  /**
   * The string predicates are case-sensitive occurrence and equality tests,
   * and the negated ones are exact negations for every field text, the empty
   * one included.
   */
  lemma StringPredicates(field: string, value: string, email: Email)
    requires IsStringField(field)
    ensures EvaluateRule(Condition(field, "contains", value), email)
        <==> exists i :: OccursAt(FieldValue(email, field), value, i)
    ensures EvaluateRule(Condition(field, "does not contain", value), email)
        <==> !EvaluateRule(Condition(field, "contains", value), email)
    ensures EvaluateRule(Condition(field, "equals", value), email) <==> FieldValue(email, field) == value
    ensures EvaluateRule(Condition(field, "not equals", value), email)
        <==> !EvaluateRule(Condition(field, "equals", value), email)
  {
    assert EvaluateRule(Condition(field, "contains", value), email) == Contains(FieldValue(email, field), value);
    ContainsIff(FieldValue(email, field), value);
  }

  /** A missing header reads as the empty text; an unknown field never matches. */
  lemma MissingAndUnknownFields(rule: Condition, email: Email)
    ensures rule.field !in email ==> EvaluateRule(rule, email) == EvaluateRule(rule, email[rule.field := ""])
    ensures !IsStringField(rule.field) && rule.field != DateField ==> !EvaluateRule(rule, email)
  {
    assert FieldValue(email[rule.field := ""], rule.field) == "";
  }

  /**
   * The date predicates compare the header text with the operand as strings:
   * `less than` is text < operand and `greater than` is text > operand, so
   * at most one holds, and neither holds exactly when the two are equal.
   */
  lemma DatePredicatesLexicographic(value: string, email: Email)
    ensures var text := FieldValue(email, DateField);
      && (EvaluateRule(Condition(DateField, "less than", value), email) <==> LexLess(text, value))
      && (EvaluateRule(Condition(DateField, "greater than", value), email) <==> LexLess(value, text))
      && !(EvaluateRule(Condition(DateField, "less than", value), email)
           && EvaluateRule(Condition(DateField, "greater than", value), email))
      && ((!EvaluateRule(Condition(DateField, "less than", value), email)
           && !EvaluateRule(Condition(DateField, "greater than", value), email)) <==> text == value)
  {
    var text := FieldValue(email, DateField);
    LexTrichotomy(text, value);
    LexTrichotomy(value, text);
  }

  /**
   * A predicate the chain does not list never matches: on a string field
   * anything but the four string predicates, on the date field anything but
   * the two comparisons.
   */
  lemma UnlistedPredicateNeverMatches(rule: Condition, email: Email)
    requires IsStringField(rule.field) ==> rule.relation !in {"contains", "does not contain", "equals", "not equals"}
    requires rule.field == DateField ==> rule.relation !in {"less than", "greater than"}
    ensures !EvaluateRule(rule, email)
  {
  }

  // ===========================================================================
  // RuleCollection

  /** `all(...)` over the rules. */
  function AllHold(rules: seq<Condition>, email: Email): bool
  {
    rules == [] || (EvaluateRule(rules[0], email) && AllHold(rules[1..], email))
  }

  /** `any(...)` over the rules. */
  function AnyHolds(rules: seq<Condition>, email: Email): bool
  {
    rules != [] && (EvaluateRule(rules[0], email) || AnyHolds(rules[1..], email))
  }

  /** Rule evaluation raises nothing, so `all`/`any` are the quantifiers over the list. */
  lemma {:induction false} AllAnyQuantifiers(rules: seq<Condition>, email: Email)
    ensures AllHold(rules, email) <==> forall i :: 0 <= i < |rules| ==> EvaluateRule(rules[i], email)
    ensures AnyHolds(rules, email) <==> exists i :: 0 <= i < |rules| && EvaluateRule(rules[i], email)
  {
    if rules != [] {
      AllAnyQuantifiers(rules[1..], email);
      assert forall i :: 1 <= i < |rules| ==> rules[i] == rules[1..][i - 1];
      if AnyHolds(rules[1..], email) {
        var j :| 0 <= j < |rules[1..]| && EvaluateRule(rules[1..][j], email);
        assert EvaluateRule(rules[j + 1], email);
      }
    }
  }

  /** Only the exact text "All" selects conjunction; anything else, "all" included, selects disjunction. */
  function Matches(rc: RuleCollection, email: Email): (r: bool)
    ensures rc.rules == [] ==> (r <==> rc.ruleType == "All")
    ensures |rc.rules| == 1 ==> (r <==> EvaluateRule(rc.rules[0], email))
  {
    assert |rc.rules| == 1 ==> AllHold(rc.rules[1..], email) && !AnyHolds(rc.rules[1..], email);
    if rc.ruleType == "All" then AllHold(rc.rules, email) else AnyHolds(rc.rules, email)
  }

  lemma SelectsConjunction(rc: RuleCollection, email: Email)
    ensures rc.ruleType == "All" ==>
      (Matches(rc, email) <==> forall i :: 0 <= i < |rc.rules| ==> EvaluateRule(rc.rules[i], email))
    ensures rc.ruleType != "All" ==>
      (Matches(rc, email) <==> exists i :: 0 <= i < |rc.rules| && EvaluateRule(rc.rules[i], email))
    ensures rc.rules == [] ==> (Matches(rc, email) <==> rc.ruleType == "All")
  {
    AllAnyQuantifiers(rc.rules, email);
  }

  // ===========================================================================
  // Actions

  /** What an action reports it would do (the print of `mark` / `move`). */
  datatype Notice = Marking(id: MessageId, value: string) | Moving(id: MessageId, folder: string)

  /** `email['ID']` on a record without an id. */
  datatype Error = KeyError(key: string)

  /** One action: mark and move report on the message's id, other types are skipped. */
  function ActionNotice(email: Email, action: Action): Result<seq<Notice>, Error>
  {
    if action.actionType != "mark" && action.actionType != "move" then Ok([])
    else if IdKey !in email then Err(KeyError(IdKey))
    else if action.actionType == "mark" then Ok([Marking(email[IdKey], action.actionValue)])
    else Ok([Moving(email[IdKey], action.actionValue)])
  }

  /**
   * `execute_actions`: the notices of the actions in list order; a KeyError
   * stops the rest, and the notices already printed stay printed.
   */
  function ActionsNotices(email: Email, actions: seq<Action>): (seq<Notice>, Option<Error>)
  {
    if actions == [] then ([], None)
    else match ActionNotice(email, actions[0])
      case Err(e) => ([], Some(e))
      case Ok(first) =>
        var rest := ActionsNotices(email, actions[1..]);
        (first + rest.0, rest.1)
  }

  /** Running `a + b` reports `a`'s notices and then, unless `a` failed, `b`'s. */
  lemma {:induction false} ActionsInOrder(email: Email, a: seq<Action>, b: seq<Action>)
    ensures var (na, fa) := ActionsNotices(email, a);
      && ActionsNotices(email, a + b).0 == na + (if fa.Some? then [] else ActionsNotices(email, b).0)
      && ActionsNotices(email, a + b).1 == (if fa.Some? then fa else ActionsNotices(email, b).1)
  {
    if a == [] {
      assert a + b == b;
      assert [] + ActionsNotices(email, b).0 == ActionsNotices(email, b).0;
    } else {
      assert (a + b)[0] == a[0] && (a + b)[1..] == a[1..] + b;
      ActionsInOrder(email, a[1..], b);
      match ActionNotice(email, a[0])
      case Err(e) =>
        assert ActionsNotices(email, a).0 + [] == ActionsNotices(email, a).0;
      case Ok(first) =>
        var (nb, fb) := ActionsNotices(email, b);
        var (nr, fr) := ActionsNotices(email, a[1..]);
        assert first + (nr + nb) == (first + nr) + nb;
        assert first + (nr + []) == first + nr;
    }
  }

  /** The notice a dispatched action prints for the message `id`. */
  function NoticeFor(id: MessageId, action: Action): Notice
  {
    if action.actionType == "mark" then Marking(id, action.actionValue) else Moving(id, action.actionValue)
  }

  /**
   * With an id present nothing raises, and every mark or move action reports
   * one notice: report i is the notice of the i-th dispatched action on the
   * message's id.
   */
  lemma {:induction false} ActionsWithId(email: Email, actions: seq<Action>)
    requires IdKey in email
    ensures ActionsNotices(email, actions).1 == None
    ensures |ActionsNotices(email, actions).0| == |Dispatched(actions)|
    ensures forall i :: 0 <= i < |Dispatched(actions)| ==>
      ActionsNotices(email, actions).0[i] == NoticeFor(email[IdKey], Dispatched(actions)[i])
  {
    if actions != [] {
      ActionsWithId(email, actions[1..]);
      var first := ActionNotice(email, actions[0]);
      assert first.Ok?;
      var rest, d, dRest := ActionsNotices(email, actions[1..]).0, Dispatched(actions), Dispatched(actions[1..]);
      assert ActionsNotices(email, actions).0 == first.value + rest;
      if actions[0].actionType in {"mark", "move"} {
        assert d == [actions[0]] + dRest;
        assert first.value == [NoticeFor(email[IdKey], actions[0])];
        forall i | 1 <= i < |d|
          ensures ActionsNotices(email, actions).0[i] == NoticeFor(email[IdKey], d[i])
        {
          assert d[i] == dRest[i - 1];
        }
      } else {
        assert first.value == [];
        assert d == dRest;
      }
    }
  }

  /** The actions `execute_actions` dispatches, in order. */
  function Dispatched(actions: seq<Action>): (d: seq<Action>)
    ensures forall i :: 0 <= i < |d| ==> d[i].actionType in {"mark", "move"}
    ensures |d| <= |actions|
  {
    if actions == [] then []
    else if actions[0].actionType in {"mark", "move"} then [actions[0]] + Dispatched(actions[1..])
    else Dispatched(actions[1..])
  }

  /**
   * Dispatching keeps every mark and move and drops every other action, in
   * list order: one action at a time, and a concatenation piece by piece.
   */
  lemma {:induction false} DispatchedAppend(a: seq<Action>, b: seq<Action>)
    ensures Dispatched(a + b) == Dispatched(a) + Dispatched(b)
    ensures |a| == 1 ==> Dispatched(a) == if a[0].actionType in {"mark", "move"} then a else []
  {
    if a == [] {
      assert a + b == b;
    } else {
      assert (a + b)[0] == a[0] && (a + b)[1..] == a[1..] + b;
      DispatchedAppend(a[1..], b);
      if |a| == 1 {
        assert a[1..] == [];
      }
    }
  }

  /** `RuleCollection.execute_actions`, printing as it goes. */
  method ExecuteActions(actions: seq<Action>, email: Email) returns (printed: seq<Notice>, err: Option<Error>)
    ensures (printed, err) == ActionsNotices(email, actions)
  {
    printed := [];
    var i := 0;
    assert actions[0..] == actions;
    while i < |actions|
      invariant 0 <= i <= |actions|
      invariant ActionsNotices(email, actions).0 == printed + ActionsNotices(email, actions[i..]).0
      invariant ActionsNotices(email, actions).1 == ActionsNotices(email, actions[i..]).1
    {
      var action := actions[i];
      assert actions[i..][0] == action && actions[i..][1..] == actions[i + 1..];
      if action.actionType == "mark" || action.actionType == "move" {
        if IdKey !in email {
          assert printed + [] == printed;
          return printed, Some(KeyError(IdKey));
        }
        if action.actionType == "mark" {
          printed := printed + [Marking(email[IdKey], action.actionValue)];
        } else {
          printed := printed + [Moving(email[IdKey], action.actionValue)];
        }
      }
      i := i + 1;
    }
    assert actions[i..] == [] && printed + [] == printed;
    err := None;
  }

  /** `RuleCollection.evaluate`: the actions run, in order, only on a match. */
  method Evaluate(rc: RuleCollection, email: Email) returns (r: Result<bool, Error>, printed: seq<Notice>)
    ensures !Matches(rc, email) ==> r == Ok(false) && printed == []
    ensures Matches(rc, email) ==> printed == ActionsNotices(email, rc.actions).0
    ensures Matches(rc, email) ==>
      r == (if ActionsNotices(email, rc.actions).1.Some? then Err(ActionsNotices(email, rc.actions).1.value) else Ok(true))
  {
    if Matches(rc, email) {
      var err;
      printed, err := ExecuteActions(rc.actions, email);
      if err.Some? {
        return Err(err.value), printed;
      }
      return Ok(true), printed;
    }
    return Ok(false), [];
  }

  // ===========================================================================
  // The module-level example

  const ExampleRuleData := RuleData(
    Some("Mark Unread - Jatin"),
    Some("Mark unread emails from this cool guy Jatin."),
    Some("All"),
    Some([Condition("From", "equals", "21mcmc01@uohyd.ac.in")]),
    Some([Action("mark", "unread")]))

  /** The sample message; its integer id 123 is written as the text "123". */
  const ExampleEmail: Email := map[
    "ID" := "123",
    "From" := "21mcmc01@uohyd.ac.in",
    "Subject" := "Important Email",
    "Message" := "This is the email content.",
    "Received Date/Time" := "2023-10-13 10:30:00"]

  /** The sample rule matches the sample message and marks it unread. */
  method Example() returns (r: Result<bool, Error>, printed: seq<Notice>)
    ensures r == Ok(true) && printed == [Marking("123", "unread")]
  {
    var rc := Load(ExampleRuleData);
    assert EvaluateRule(rc.rules[0], ExampleEmail);
    assert Matches(rc, ExampleEmail);
    r, printed := Evaluate(rc, ExampleEmail);
  }
}

=== FILE: rulegen.dfy ===
/**
 * The interactive rule generator (rule_gen.py): the rule record, the
 * field, predicate, unit and action tables, the prompts that read answers
 * until one is accepted, and the file name the rule is saved under.
 *
 * Standard input is the list of lines the session types, read from a
 * position that each `input()` advances by one; reading past the end is
 * the EOFError of `input()`, a `None` here. What the prompts print is not
 * modelled.
 */
module RuleGen {
  import opened Wrappers
  import opened Text
  import opened Numerals
  import opened Schema

  /** `create_rule`: every key present and bound to its argument. */
  function CreateRule(ruleName: string, ruleDescription: string, ruleType: string,
                      fields: seq<Condition>, actions: seq<Action>): (r: RuleData)
    ensures r.ruleName == Some(ruleName) && r.ruleDescription == Some(ruleDescription)
    ensures r.ruleType == Some(ruleType) && r.rules == Some(fields) && r.actions == Some(actions)
  {
    RuleData(Some(ruleName), Some(ruleDescription), Some(ruleType), Some(fields), Some(actions))
  }

  // ===========================================================================
  // The tables

  /** `field_mapping` of `prompt_for_field`: menu number to field name. */
  const FieldChoices: map<string, string> :=
    map["1" := FromField, "2" := SubjectField, "3" := MessageField, "4" := DateField]

  /** The four field names, in menu order. */
  const FieldNames: seq<string> := [FromField, SubjectField, MessageField, DateField]

  const StringPredicates: seq<string> := ["contains", "does not contain", "equals", "does not equal"]
  const DatePredicates: seq<string> := ["less than", "greater than"]

  /** `allowed_predicates` of `prompt_for_predicate`, keyed by the four field names. */
  const AllowedPredicates: map<string, seq<string>> :=
    map[FromField := StringPredicates, SubjectField := StringPredicates,
        MessageField := StringPredicates, DateField := DatePredicates]

  /** `time_units` of `prompt_for_value`. */
  const TimeUnits: seq<string> := ["Days", "Months"]

  /** `action_mapping` of `prompt_for_action`; entry "3" gets its label id when chosen. */
  const ActionTable: map<string, Action> :=
    map["1" := Action("mark", "read"), "2" := Action("mark", "unread"), "3" := Action("move", "")]

  /** A one-character answer whose character lies in `lo`..`hi`. */
  predicate IsMenuDigit(answer: string, lo: char, hi: char)
  {
    |answer| == 1 && lo <= answer[0] <= hi
  }

  /** The answer `prompt_for_field` accepts: a menu number "1" to "4"; the field it names. */
  function FieldChoice(answer: string): (r: Option<string>)
    ensures r.Some? <==> IsMenuDigit(answer, '1', '4')
    ensures r.Some? ==> r.value in FieldNames
  {
    if IsMenuDigit(answer, '1', '4') then Some(FieldNames[answer[0] as int - '1' as int]) else None
  }

  /** FieldChoice is the lookup in `field_mapping`: "1" From, "2" Subject, "3" Message, "4" Received Date/Time. */
  lemma FieldChoiceTable(answer: string)
    ensures FieldChoice(answer) == if answer in FieldChoices then Some(FieldChoices[answer]) else None
    ensures FieldChoice("1") == Some(FromField) && FieldChoice("2") == Some(SubjectField)
    ensures FieldChoice("3") == Some(MessageField) && FieldChoice("4") == Some(DateField)
  {
    if IsMenuDigit(answer, '1', '4') {
      assert answer == [answer[0]];
    }
  }

  /** The predicates offered for a field: the date ones for the date field, the string ones otherwise. */
  function PredicatesFor(field: string): seq<string>
  {
    if field == DateField then DatePredicates else StringPredicates
  }

  /** PredicatesFor is the lookup in `allowed_predicates`, whose keys are the four field names. */
  lemma PredicatesForTable(field: string)
    ensures field in AllowedPredicates <==> field in FieldNames
    ensures field in AllowedPredicates ==> PredicatesFor(field) == AllowedPredicates[field]
  {
  }

  /**
   * The answer `prompt_for_predicate` accepts: digits only, naming a
   * position 1..n of the list; the predicate at that position.
   */
  function PredicateChoice(answer: string, options: seq<string>): (r: Option<string>)
    ensures r.Some? <==> IsDigits(answer) && 1 <= NatValue(answer) <= |options|
    ensures r.Some? ==> r.value == options[NatValue(answer) - 1]
  {
    if IsDigits(answer) && 1 <= NatValue(answer) <= |options| then Some(options[NatValue(answer) - 1])
    else None
  }

  /** The decimal text of every position of the list selects that position's predicate. */
  lemma PredicateChoiceRoundTrip(k: nat, options: seq<string>)
    requires 1 <= k <= |options|
    ensures PredicateChoice(NatText(k), options) == Some(options[k - 1])
  {
    NatTextRoundTrip(k);
  }

  /** The answer the unit prompt accepts: "1" or "2"; the unit it names. */
  function UnitChoice(answer: string): (r: Option<string>)
    ensures r.Some? <==> IsMenuDigit(answer, '1', '2')
    ensures r.Some? ==> r.value in TimeUnits
  {
    if IsMenuDigit(answer, '1', '2') then Some(TimeUnits[answer[0] as int - '1' as int]) else None
  }

  /** UnitChoice accepts exactly the answers in ["1", "2"], "1" naming Days and "2" Months. */
  lemma UnitChoiceTable(answer: string)
    ensures UnitChoice(answer).Some? <==> answer in ["1", "2"]
    ensures UnitChoice("1") == Some("Days") && UnitChoice("2") == Some("Months")
  {
    if IsMenuDigit(answer, '1', '2') {
      assert answer == [answer[0]];
    }
  }

  /** The date operand: the count as typed, a space, and the first letter of the unit. */
  function DateOperand(count: string, unit: string): (r: string)
    requires unit != []
    ensures |r| == |count| + 2 && r[..|count|] == count
    ensures HasUnit(r) <==> unit[0] == 'D' || unit[0] == 'M'
  {
    var operand := count + " " + [unit[0]];
    assert operand[|count|..] == [' ', unit[0]];
    operand
  }

  /** A date operand ends in " D" or " M". */
  predicate HasUnit(operand: string)
  {
    |operand| >= 2 && operand[|operand| - 2..] in {" D", " M"}
  }

  /** The two operand units the date predicates read. */
  lemma DateOperandUnits(count: string)
    ensures DateOperand(count, TimeUnits[0]) == count + " D"
    ensures DateOperand(count, TimeUnits[1]) == count + " M"
  {
  }

  /** The key `prompt_for_action` accepts: a menu number "1" to "3". */
  function ActionChoice(answer: string): (r: Option<string>)
    ensures r.Some? <==> IsMenuDigit(answer, '1', '3')
    ensures r.Some? ==> r.value == answer
  {
    if IsMenuDigit(answer, '1', '3') then Some(answer) else None
  }

  /** The action a menu key stands for, with the label id that choice 3 asks for. */
  function ChosenAction(key: string, labelId: string): (a: Action)
    requires IsMenuDigit(key, '1', '3')
    ensures key == "1" ==> a == Action("mark", "read")
    ensures key == "2" ==> a == Action("mark", "unread")
    ensures key == "3" ==> a == Action("move", labelId)
  {
    if key[0] == '1' then Action("mark", "read")
    else if key[0] == '2' then Action("mark", "unread")
    else Action("move", labelId)
  }

  /**
   * ActionChoice accepts exactly the keys of `action_mapping`, and
   * ChosenAction is that entry, with the label id put in for key "3".
   */
  lemma ActionTableLookup(answer: string, labelId: string)
    ensures ActionChoice(answer).Some? <==> answer in ActionTable
    ensures answer in ActionTable ==>
      ChosenAction(answer, labelId) == if answer == "3" then ActionTable[answer].(actionValue := labelId) else ActionTable[answer]
  {
    if IsMenuDigit(answer, '1', '3') {
      assert answer == [answer[0]];
    }
  }

  /** The file the rule is saved to: spaces in the name become underscores, then ".json". */
  function FileName(ruleName: string): (r: string)
    ensures |r| == |ruleName| + 5 && r[|ruleName|..] == ".json"
    ensures forall i :: 0 <= i < |ruleName| ==> r[i] != ' '
  {
    ReplaceCharAt(ruleName, ' ', '_');
    ReplaceAll(ruleName, " ", "_") + ".json"
  }

  /** The file name keeps the rule name's letters, with each space turned into "_". */
  lemma FileNameShape(ruleName: string)
    ensures forall i :: 0 <= i < |ruleName| ==>
              FileName(ruleName)[i] == if ruleName[i] == ' ' then '_' else ruleName[i]
  {
    ReplaceCharAt(ruleName, ' ', '_');
  }

  // ===========================================================================
  // Reading answers
  //
  // Standard input is the list of every line typed, read from a position on.
  // The answer functions take the lines and the position reading starts at,
  // and give the answer with the position after the last line read.

  /** The four questions `main` asks until it gets an answer it accepts. */
  datatype Question = FieldQuestion | PredicateQuestion(options: seq<string>) | UnitQuestion | ActionQuestion

  /** The answer each question accepts, as its table names it; None sends the question again. */
  function Accepts(q: Question, answer: string): Option<string>
  {
    match q
    case FieldQuestion => FieldChoice(answer)
    case PredicateQuestion(options) => PredicateChoice(answer, options)
    case UnitQuestion => UnitChoice(answer)
    case ActionQuestion => ActionChoice(answer)
  }

  /**
   * The first line from `from` on that question `q` accepts, and the
   * position after it; None, with everything read, when input ends first.
   */
  function FirstAccepted(lines: seq<string>, from: nat, q: Question): (r: (Option<string>, nat))
    ensures r.1 <= |lines| && (from <= |lines| ==> from <= r.1)
    ensures r.0.Some? ==> from < r.1 && Accepts(q, lines[r.1 - 1]) == r.0
    ensures r.0 == None ==> r.1 == |lines|
    decreases |lines| - from
  {
    if from >= |lines| then (None, |lines|)
    else if Accepts(q, lines[from]).Some? then (Accepts(q, lines[from]), from + 1)
    else FirstAccepted(lines, from + 1, q)
  }

  /** Every line passed over on the way is one `q` refuses: the question is asked again for each. */
  lemma {:induction false} FirstAcceptedSkips(lines: seq<string>, from: nat, q: Question)
    ensures var r := FirstAccepted(lines, from, q);
      && (forall k :: from <= k < r.1 - 1 ==> Accepts(q, lines[k]) == None)
      && (r.0 == None ==> forall k :: from <= k < |lines| ==> Accepts(q, lines[k]) == None)
    decreases |lines| - from
  {
    if from < |lines| && Accepts(q, lines[from]).None? {
      FirstAcceptedSkips(lines, from + 1, q);
      assert FirstAccepted(lines, from, q) == FirstAccepted(lines, from + 1, q);
    }
  }

  /** `input()` at position `next`: that line and the position after it, or None (EOFError) at the end of input. */
  method ReadLine(lines: seq<string>, next: nat) returns (line: Option<string>, after: nat)
    requires next <= |lines|
    ensures next == |lines| ==> line == None && after == next
    ensures next < |lines| ==> line == Some(lines[next]) && after == next + 1
  {
    if next == |lines| {
      return None, next;
    }
    line, after := Some(lines[next]), next + 1;
  }

  /** A retry loop: read from `next` on until question `q` accepts a line. */
  method Prompt(lines: seq<string>, next: nat, q: Question) returns (r: Option<string>, after: nat)
    requires next <= |lines|
    ensures (r, after) == FirstAccepted(lines, next, q)
  {
    after := next;
    while true
      invariant next <= after <= |lines|
      invariant FirstAccepted(lines, next, q) == FirstAccepted(lines, after, q)
      decreases |lines| - after
    {
      var line;
      line, after := ReadLine(lines, after);
      if line == None {
        return None, after;
      }
      r := Accepts(q, line.value);
      if r.Some? {
        return r, after;
      }
    }
  }

  /** `prompt_for_field`. */
  method PromptForField(lines: seq<string>, next: nat) returns (field: Option<string>, after: nat)
    requires next <= |lines|
    ensures (field, after) == FirstAccepted(lines, next, FieldQuestion)
    ensures field.Some? ==> field.value in FieldNames
  {
    field, after := Prompt(lines, next, FieldQuestion);
  }

  /** `prompt_for_predicate`, for one of the four fields. */
  method PromptForPredicate(lines: seq<string>, next: nat, field: string) returns (relation: Option<string>, after: nat)
    requires field in FieldNames && next <= |lines|
    ensures (relation, after) == FirstAccepted(lines, next, PredicateQuestion(PredicatesFor(field)))
    ensures relation.Some? ==> relation.value in PredicatesFor(field)
  {
    var options := PredicatesFor(field);
    relation, after := Prompt(lines, next, PredicateQuestion(options));
    if relation.Some? {
      assert relation.value == options[NatValue(lines[after - 1]) - 1];
    }
  }

  /**
   * What `prompt_for_value` returns when reading starts at `from`, and the
   * position after it. For the date field the operand is the typed count
   * followed by " D" or " M"; the count itself is not checked. Any other
   * field takes the line as typed.
   */
  function ValueAnswer(lines: seq<string>, from: nat, field: string): (r: (Option<string>, nat))
    ensures r.1 <= |lines| && (from <= |lines| ==> from <= r.1)
    ensures r.0.Some? ==> from < r.1
    ensures r.0.Some? && field == DateField ==> HasUnit(r.0.value)
    ensures r.0.Some? && field != DateField ==> r.0.value == lines[from]
  {
    if field == DateField then
      var unit := FirstAccepted(lines, from, UnitQuestion);
      if unit.0 == None || unit.1 == |lines| then (None, |lines|)
      else (Some(DateOperand(lines[unit.1], unit.0.value)), unit.1 + 1)
    else if from >= |lines| then (None, |lines|)
    else (Some(lines[from]), from + 1)
  }

  /** `prompt_for_value`. */
  method PromptForValue(lines: seq<string>, next: nat, field: string) returns (value: Option<string>, after: nat)
    requires next <= |lines|
    ensures (value, after) == ValueAnswer(lines, next, field)
  {
    if field == DateField {
      var unit;
      unit, after := Prompt(lines, next, UnitQuestion);
      if unit == None {
        return None, after;
      }
      var count;
      count, after := ReadLine(lines, after);
      if count == None {
        return None, after;
      }
      value := Some(DateOperand(count.value, unit.value));
    } else {
      value, after := ReadLine(lines, next);
    }
  }

  /**
   * What `prompt_for_action` returns when reading starts at `from`: the
   * menu is asked again until a key is accepted, and key 3 then reads the
   * label id. The action and the position after it; None when input ends first.
   */
  function ActionAnswer(lines: seq<string>, from: nat): (r: (Option<Action>, nat))
    ensures r.1 <= |lines| && (from <= |lines| ==> from <= r.1)
    ensures r.0.Some? ==> from < r.1
    ensures r.0.Some? ==> r.0.value.actionType in {"mark", "move"}
    decreases |lines| - from
  {
    if from >= |lines| then (None, |lines|)
    else
      var key := ActionChoice(lines[from]);
      if key == None then ActionAnswer(lines, from + 1)
      else if key.value == "3" then
        if from + 1 == |lines| then (None, |lines|) else (Some(ChosenAction(key.value, lines[from + 1])), from + 2)
      else (Some(ChosenAction(key.value, "")), from + 1)
  }

  /** The action prompt is the retry loop on the action menu, then the label id for key 3. */
  lemma {:induction false} ActionAnswerByPrompt(lines: seq<string>, from: nat)
    ensures var key := FirstAccepted(lines, from, ActionQuestion);
      key.0.Some? ==> IsMenuDigit(key.0.value, '1', '3')
    ensures var key := FirstAccepted(lines, from, ActionQuestion);
      ActionAnswer(lines, from)
        == if key.0 == None then (None, key.1)
           else if key.0.value == "3" then
             if key.1 == |lines| then (None, key.1) else (Some(ChosenAction(key.0.value, lines[key.1])), key.1 + 1)
           else (Some(ChosenAction(key.0.value, "")), key.1)
    decreases |lines| - from
  {
    if from < |lines| && ActionChoice(lines[from]) == None {
      ActionAnswerByPrompt(lines, from + 1);
    }
  }

  /** `prompt_for_action`. */
  method PromptForAction(lines: seq<string>, next: nat) returns (action: Option<Action>, after: nat)
    requires next <= |lines|
    ensures (action, after) == ActionAnswer(lines, next)
  {
    ActionAnswerByPrompt(lines, next);
    var key;
    key, after := Prompt(lines, next, ActionQuestion);
    if key == None {
      return None, after;
    }
    var labelId := "";
    if key.value == "3" {
      var line;
      line, after := ReadLine(lines, after);
      if line == None {
        return None, after;
      }
      labelId := line.value;
    }
    action := Some(ChosenAction(key.value, labelId));
  }

  // ===========================================================================
  // main

  /** A rule entry the generator can produce: a listed field with one of its predicates. */
  predicate Authored(c: Condition)
  {
    c.field in FieldNames && c.relation in PredicatesFor(c.field)
    && (c.field == DateField ==> HasUnit(c.value))
  }

  /** `answer.lower() == "yes"`, the answer that goes round a loop of `main` again. */
  predicate SaysYes(answer: string)
  {
    |answer| == 3 && LowerChar(answer[0]) == 'y' && LowerChar(answer[1]) == 'e' && LowerChar(answer[2]) == 's'
  }

  /** The test as written, on the lower-cased answer. */
  lemma SaysYesIsLowerYes(answer: string)
    ensures SaysYes(answer) <==> Lower(answer) == "yes"
  {
    if Lower(answer) == "yes" {
      assert |answer| == 3;
      assert Lower(answer)[0] == 'y' && Lower(answer)[1] == 'e' && Lower(answer)[2] == 's';
    }
    if SaysYes(answer) {
      assert Lower(answer) == [Lower(answer)[0], Lower(answer)[1], Lower(answer)[2]];
    }
  }

  /**
   * Where one pass of the first loop of `main` stands: the question it
   * waits on and the answers it has so far.
   */
  datatype EntryStage =
    | AtField
    | AtPredicate(field: string)
    | AtValue(field: string, relation: string)
    | AtUnit(field: string, relation: string)
    | AtCount(field: string, relation: string, unit: string)

  /**
   * One pass of the first loop of `main`, a line at a time from `from` at
   * `stage`: a refused answer asks the same question again; the date field
   * asks for a unit and then the count, the other fields for the value. The
   * entry and the position after it; None when input ends first.
   */
  function EntryFrom(lines: seq<string>, from: nat, stage: EntryStage): (r: (Option<Condition>, nat))
    requires stage.AtCount? ==> stage.unit != []
    ensures r.1 <= |lines| && (from <= |lines| ==> from <= r.1)
    ensures r.0.Some? ==> from < r.1
    decreases |lines| - from
  {
    if from >= |lines| then (None, |lines|)
    else
      var line := lines[from];
      match stage
      case AtField =>
        var field := FieldChoice(line);
        if field == None then EntryFrom(lines, from + 1, AtField)
        else EntryFrom(lines, from + 1, AtPredicate(field.value))
      case AtPredicate(field) =>
        var relation := PredicateChoice(line, PredicatesFor(field));
        if relation == None then EntryFrom(lines, from + 1, stage)
        else if field == DateField then EntryFrom(lines, from + 1, AtUnit(field, relation.value))
        else EntryFrom(lines, from + 1, AtValue(field, relation.value))
      case AtValue(field, relation) => (Some(Condition(field, relation, line)), from + 1)
      case AtUnit(field, relation) =>
        var unit := UnitChoice(line);
        if unit == None then EntryFrom(lines, from + 1, stage)
        else EntryFrom(lines, from + 1, AtCount(field, relation, unit.value))
      case AtCount(field, relation, unit) => (Some(Condition(field, relation, DateOperand(line, unit))), from + 1)
  }

  /** One pass of the first loop of `main` from `from`: field, predicate and value. */
  function EntryAnswer(lines: seq<string>, from: nat): (r: (Option<Condition>, nat))
  {
    EntryFrom(lines, from, AtField)
  }

  /** The field question is `prompt_for_field`; the predicate question follows the field it accepts. */
  lemma {:induction false} FieldStage(lines: seq<string>, from: nat)
    ensures var field := FirstAccepted(lines, from, FieldQuestion);
      EntryFrom(lines, from, AtField)
        == if field.0 == None then (None, field.1) else EntryFrom(lines, field.1, AtPredicate(field.0.value))
    decreases |lines| - from
  {
    if from < |lines| && FieldChoice(lines[from]) == None {
      FieldStage(lines, from + 1);
    }
  }

  /**
   * The predicate question is `prompt_for_predicate` over the field's
   * predicates; the unit question follows for the date field, the value
   * for the others.
   */
  lemma {:induction false} PredicateStage(lines: seq<string>, from: nat, field: string)
    ensures var relation := FirstAccepted(lines, from, PredicateQuestion(PredicatesFor(field)));
      EntryFrom(lines, from, AtPredicate(field))
        == if relation.0 == None then (None, relation.1)
           else if field == DateField then EntryFrom(lines, relation.1, AtUnit(field, relation.0.value))
           else EntryFrom(lines, relation.1, AtValue(field, relation.0.value))
    decreases |lines| - from
  {
    if from < |lines| && PredicateChoice(lines[from], PredicatesFor(field)) == None {
      PredicateStage(lines, from + 1, field);
    }
  }

  /** The unit question is the retry loop of `prompt_for_value`; the count follows the unit it accepts. */
  lemma {:induction false} UnitStage(lines: seq<string>, from: nat, field: string, relation: string)
    ensures var unit := FirstAccepted(lines, from, UnitQuestion);
      unit.0.Some? ==> unit.0.value in TimeUnits
    ensures var unit := FirstAccepted(lines, from, UnitQuestion);
      EntryFrom(lines, from, AtUnit(field, relation))
        == if unit.0 == None then (None, unit.1) else EntryFrom(lines, unit.1, AtCount(field, relation, unit.0.value))
    decreases |lines| - from
  {
    if from < |lines| && UnitChoice(lines[from]) == None {
      UnitStage(lines, from + 1, field, relation);
    }
  }

  /** The value stages are `prompt_for_value`: the entry takes the value it returns. */
  lemma ValueStage(lines: seq<string>, from: nat, field: string, relation: string)
    ensures var value := ValueAnswer(lines, from, field);
      EntryFrom(lines, from, if field == DateField then AtUnit(field, relation) else AtValue(field, relation))
        == if value.0 == None then (None, value.1) else (Some(Condition(field, relation, value.0.value)), value.1)
  {
    if field == DateField {
      UnitStage(lines, from, field, relation);
    }
  }

  /** A stage `main` can reach: every answer so far is one the tables offer. */
  predicate StageOffered(stage: EntryStage)
  {
    match stage
    case AtField => true
    case AtPredicate(field) => field in FieldNames
    case AtValue(field, relation) => field in FieldNames && field != DateField && relation in PredicatesFor(field)
    case AtUnit(field, relation) => field == DateField && relation in PredicatesFor(field)
    case AtCount(field, relation, unit) => field == DateField && relation in PredicatesFor(field) && unit in TimeUnits
  }

  /** From a stage `main` can reach, the entry read is one the generator offers. */
  lemma {:induction false} EntryFromAuthored(lines: seq<string>, from: nat, stage: EntryStage)
    requires StageOffered(stage)
    ensures stage.AtCount? ==> stage.unit != []
    ensures var r := EntryFrom(lines, from, stage);
      r.0.Some? ==> Authored(r.0.value)
    decreases |lines| - from
  {
    if from < |lines| {
      var line := lines[from];
      match stage
      case AtField =>
        var field := FieldChoice(line);
        if field == None {
          EntryFromAuthored(lines, from + 1, AtField);
        } else {
          EntryFromAuthored(lines, from + 1, AtPredicate(field.value));
        }
      case AtPredicate(field) =>
        var relation := PredicateChoice(line, PredicatesFor(field));
        if relation == None {
          EntryFromAuthored(lines, from + 1, stage);
        } else if field == DateField {
          EntryFromAuthored(lines, from + 1, AtUnit(field, relation.value));
        } else {
          EntryFromAuthored(lines, from + 1, AtValue(field, relation.value));
        }
      case AtValue(field, relation) =>
      case AtUnit(field, relation) =>
        var unit := UnitChoice(line);
        if unit == None {
          EntryFromAuthored(lines, from + 1, stage);
        } else {
          EntryFromAuthored(lines, from + 1, AtCount(field, relation, unit.value));
        }
      case AtCount(field, relation, unit) =>
    }
  }

  /** Every entry read is one the generator offers, and reading it takes at least one line. */
  lemma EntryAuthored(lines: seq<string>, from: nat)
    ensures var r := EntryAnswer(lines, from);
      r.0.Some? ==> Authored(r.0.value) && from < r.1
  {
    EntryFromAuthored(lines, from, AtField);
  }

  /**
   * The first loop of `main` having collected `xs`, reading on from `from`:
   * one entry, then "Add another field?", round again while the answer is
   * yes. The entries and the position after the last line read; end of
   * input anywhere, that question included, is the EOFError of `input()`:
   * no list, None.
   */
  function MoreEntries(xs: seq<Condition>, lines: seq<string>, from: nat): (r: (Option<seq<Condition>>, nat))
    decreases |lines| - from
  {
    var entry := EntryAnswer(lines, from);
    if entry.0 == None || entry.1 >= |lines| then (None, entry.1)
    else if !SaysYes(lines[entry.1]) then (Some(xs + [entry.0.value]), entry.1 + 1)
    else MoreEntries(xs + [entry.0.value], lines, entry.1 + 1)
  }

  /** One pass of the first loop, by the way it ends. */
  lemma MoreEntriesStep(xs: seq<Condition>, lines: seq<string>, from: nat, entry: Option<Condition>, to: nat)
    requires EntryAnswer(lines, from) == (entry, to)
    ensures entry == None || to >= |lines| ==> MoreEntries(xs, lines, from) == (None, to)
    ensures entry.Some? && to < |lines| && !SaysYes(lines[to]) ==> MoreEntries(xs, lines, from) == (Some(xs + [entry.value]), to + 1)
    ensures entry.Some? && to < |lines| && SaysYes(lines[to]) ==> MoreEntries(xs, lines, from) == MoreEntries(xs + [entry.value], lines, to + 1)
  {
  }

  /** The first loop keeps what it has collected and adds at least one entry. */
  lemma {:induction false} MoreEntriesGrows(xs: seq<Condition>, lines: seq<string>, from: nat)
    ensures var r := MoreEntries(xs, lines, from).0;
      r.Some? ==> |r.value| > |xs| && r.value[..|xs|] == xs
    decreases |lines| - from
  {
    var entry := EntryAnswer(lines, from);
    MoreEntriesStep(xs, lines, from, entry.0, entry.1);
    if entry.0.Some? && entry.1 < |lines| {
      var ys := xs + [entry.0.value];
      if SaysYes(lines[entry.1]) {
        MoreEntriesGrows(ys, lines, entry.1 + 1);
        var r := MoreEntries(ys, lines, entry.1 + 1).0;
        if r.Some? {
          assert r.value[..|xs|] == r.value[..|ys|][..|xs|];
        }
      } else {
        assert ys[..|xs|] == xs;
      }
    }
  }

  /** Every entry the first loop adds is one the generator offers. */
  lemma {:induction false} MoreEntriesAuthored(xs: seq<Condition>, lines: seq<string>, from: nat)
    requires forall i :: 0 <= i < |xs| ==> Authored(xs[i])
    ensures var r := MoreEntries(xs, lines, from).0;
      r.Some? ==> forall i :: 0 <= i < |r.value| ==> Authored(r.value[i])
    decreases |lines| - from
  {
    var entry := EntryAnswer(lines, from);
    MoreEntriesStep(xs, lines, from, entry.0, entry.1);
    if entry.0.Some? && entry.1 < |lines| {
      EntryAuthored(lines, from);
      var ys := xs + [entry.0.value];
      assert forall i :: 0 <= i < |ys| ==> Authored(ys[i]);
      if SaysYes(lines[entry.1]) {
        MoreEntriesAuthored(ys, lines, entry.1 + 1);
      }
    }
  }

  /** The first loop of `main` from its start. */
  function EntriesAnswer(lines: seq<string>, from: nat): (r: (Option<seq<Condition>>, nat))
  {
    MoreEntries([], lines, from)
  }

  /** The entries read are one or more, each one the generator offers. */
  lemma EntriesAuthored(lines: seq<string>, from: nat)
    ensures var r := EntriesAnswer(lines, from).0;
      r.Some? ==> |r.value| >= 1 && forall i :: 0 <= i < |r.value| ==> Authored(r.value[i])
  {
    MoreEntriesGrows([], lines, from);
    MoreEntriesAuthored([], lines, from);
  }

  /** One pass of the first loop of `main`: a field, its predicate and its value. */
  method PromptForEntry(lines: seq<string>, next: nat) returns (entry: Option<Condition>, after: nat)
    requires next <= |lines|
    ensures (entry, after) == EntryAnswer(lines, next)
    ensures entry.Some? ==> Authored(entry.value)
  {
    EntryAuthored(lines, next);
    FieldStage(lines, next);
    var field, relation, value;
    field, after := PromptForField(lines, next);
    if field == None {
      return None, after;
    }
    PredicateStage(lines, after, field.value);
    relation, after := PromptForPredicate(lines, after, field.value);
    if relation == None {
      return None, after;
    }
    ValueStage(lines, after, field.value, relation.value);
    value, after := PromptForValue(lines, after, field.value);
    if value == None {
      return None, after;
    }
    entry := Some(Condition(field.value, relation.value, value.value));
  }

  /** The first loop of `main`. */
  method PromptForEntries(lines: seq<string>, next: nat) returns (fields: Option<seq<Condition>>, after: nat)
    requires next <= |lines|
    ensures (fields, after) == EntriesAnswer(lines, next) && next <= after <= |lines|
  {
    var entries: seq<Condition> := [];
    after := next;
    while true
      invariant next <= after <= |lines|
      invariant EntriesAnswer(lines, next) == MoreEntries(entries, lines, after)
      decreases |lines| - after
    {
      var before := after;
      var entry, another;
      entry, after := PromptForEntry(lines, after);
      MoreEntriesStep(entries, lines, before, entry, after);
      if entry == None {
        return None, after;
      }
      another, after := ReadLine(lines, after);
      if another == None {
        return None, after;
      }
      if !SaysYes(another.value) {
        return Some(entries + [entry.value]), after;
      }
      entries := entries + [entry.value];
    }
  }

  /**
   * The second loop of `main` having collected `xs`, reading on from `from`:
   * one action, then "Add another action?", round again while the answer is
   * yes; end of input anywhere is the EOFError of `input()`: None.
   */
  function MoreActions(xs: seq<Action>, lines: seq<string>, from: nat): (r: (Option<seq<Action>>, nat))
    decreases |lines| - from
  {
    var action := ActionAnswer(lines, from);
    if action.0 == None || action.1 >= |lines| then (None, action.1)
    else if !SaysYes(lines[action.1]) then (Some(xs + [action.0.value]), action.1 + 1)
    else MoreActions(xs + [action.0.value], lines, action.1 + 1)
  }

  /** One pass of the second loop, by the way it ends. */
  lemma MoreActionsStep(xs: seq<Action>, lines: seq<string>, from: nat, action: Option<Action>, to: nat)
    requires ActionAnswer(lines, from) == (action, to)
    ensures action == None || to >= |lines| ==> MoreActions(xs, lines, from) == (None, to)
    ensures action.Some? && to < |lines| && !SaysYes(lines[to]) ==> MoreActions(xs, lines, from) == (Some(xs + [action.value]), to + 1)
    ensures action.Some? && to < |lines| && SaysYes(lines[to]) ==> MoreActions(xs, lines, from) == MoreActions(xs + [action.value], lines, to + 1)
  {
  }

  /**
   * The second loop keeps what it has collected, adds at least one action,
   * and every action it adds is a mark or a move.
   */
  lemma {:induction false} MoreActionsChosen(xs: seq<Action>, lines: seq<string>, from: nat)
    requires forall i :: 0 <= i < |xs| ==> xs[i].actionType in {"mark", "move"}
    ensures var r := MoreActions(xs, lines, from).0;
      r.Some? ==>
        && |r.value| > |xs| && r.value[..|xs|] == xs
        && forall i :: 0 <= i < |r.value| ==> r.value[i].actionType in {"mark", "move"}
    decreases |lines| - from
  {
    var action := ActionAnswer(lines, from);
    MoreActionsStep(xs, lines, from, action.0, action.1);
    if action.0.Some? && action.1 < |lines| {
      var ys := xs + [action.0.value];
      assert forall i :: 0 <= i < |ys| ==> ys[i].actionType in {"mark", "move"};
      if SaysYes(lines[action.1]) {
        MoreActionsChosen(ys, lines, action.1 + 1);
        var r := MoreActions(ys, lines, action.1 + 1).0;
        if r.Some? {
          assert r.value[..|xs|] == r.value[..|ys|][..|xs|];
        }
      } else {
        assert ys[..|xs|] == xs;
      }
    }
  }

  /** The second loop of `main` from its start. */
  function ActionsAnswer(lines: seq<string>, from: nat): (r: (Option<seq<Action>>, nat))
  {
    MoreActions([], lines, from)
  }

  /** The actions read are one or more, each a mark or a move. */
  lemma ActionsChosen(lines: seq<string>, from: nat)
    ensures var r := ActionsAnswer(lines, from).0;
      r.Some? ==> |r.value| >= 1 && forall i :: 0 <= i < |r.value| ==> r.value[i].actionType in {"mark", "move"}
  {
    MoreActionsChosen([], lines, from);
  }

  /** The second loop of `main`. */
  method PromptForActions(lines: seq<string>, next: nat) returns (actions: Option<seq<Action>>, after: nat)
    requires next <= |lines|
    ensures (actions, after) == ActionsAnswer(lines, next) && next <= after <= |lines|
  {
    var chosen: seq<Action> := [];
    after := next;
    while true
      invariant next <= after <= |lines|
      invariant ActionsAnswer(lines, next) == MoreActions(chosen, lines, after)
      decreases |lines| - after
    {
      var before := after;
      var action, another;
      action, after := PromptForAction(lines, after);
      MoreActionsStep(chosen, lines, before, action, after);
      if action == None {
        return None, after;
      }
      another, after := ReadLine(lines, after);
      if another == None {
        return None, after;
      }
      if !SaysYes(another.value) {
        return Some(chosen + [action.value]), after;
      }
      chosen := chosen + [action.value];
    }
  }

  /**
   * What `main` saves when reading starts at `from`: name, description and
   * type are the next three lines, then the entries and the actions; None
   * when input ends before the last "Add another action?" is answered.
   */
  function AuthorAnswer(lines: seq<string>, from: nat): Option<(RuleData, string)>
  {
    if |lines| < from + 3 then None
    else
      var fields := EntriesAnswer(lines, from + 3);
      if fields.0 == None then None
      else
        var actions := ActionsAnswer(lines, fields.1);
        if actions.0 == None then None
        else Some((CreateRule(lines[from], lines[from + 1], lines[from + 2], fields.0.value, actions.0.value),
                   FileName(lines[from])))
  }

  /**
   * A saved rule carries the first three lines as its name, description and
   * type, one or more entries the generator offers and one or more marks or
   * moves, and is saved under the file name derived from its name.
   */
  lemma AuthorAnswerShape(lines: seq<string>, from: nat)
    ensures var result := AuthorAnswer(lines, from);
      result.Some? ==>
        var rule, fileName := result.value.0, result.value.1;
        && rule.ruleName == Some(lines[from]) && rule.ruleDescription == Some(lines[from + 1])
        && rule.ruleType == Some(lines[from + 2]) && fileName == FileName(lines[from])
        && rule.rules.Some? && |rule.rules.value| >= 1
        && (forall i :: 0 <= i < |rule.rules.value| ==> Authored(rule.rules.value[i]))
        && rule.actions.Some? && |rule.actions.value| >= 1
        && (forall i :: 0 <= i < |rule.actions.value| ==> rule.actions.value[i].actionType in {"mark", "move"})
  {
    if from + 3 <= |lines| {
      EntriesAuthored(lines, from + 3);
      var fields := EntriesAnswer(lines, from + 3);
      if fields.0.Some? {
        ActionsChosen(lines, fields.1);
      }
    }
  }

  /**
   * Input that ends where "Add another action?" waits for an answer writes
   * no rule: `input()` raises EOFError before the rule is saved.
   */
  lemma EndOfInputWritesNothing()
    ensures AuthorAnswer(["Tidy", "Marks mail", "All", "1", "1", "x", "no", "1"], 0) == None
  {
    var lines := ["Tidy", "Marks mail", "All", "1", "1", "x", "no", "1"];
    var entry := Condition(FromField, "contains", "x");
    assert EntryFrom(lines, 5, AtValue(FromField, "contains")) == (Some(entry), 6);
    assert IsDigits(lines[4]) && NatValue(lines[4]) == 1;
    assert EntryFrom(lines, 4, AtPredicate(FromField)) == (Some(entry), 6);
    assert EntryAnswer(lines, 3) == (Some(entry), 6);
    assert !SaysYes(lines[6]);
    MoreEntriesStep([], lines, 3, Some(entry), 6);
    assert [] + [entry] == [entry];
    assert ActionAnswer(lines, 7) == (Some(Action("mark", "read")), 8);
  }

  /**
   * `main`: reads the rule's name, description and type, then one or more
   * rule entries and one or more actions, and returns the record and the
   * name of the file it is saved to. None when input ends early.
   */
  method AuthorRule(lines: seq<string>) returns (result: Option<(RuleData, string)>)
    ensures result == AuthorAnswer(lines, 0)
    ensures result.Some? ==>
      var rule, fileName := result.value.0, result.value.1;
      && rule.ruleName.Some? && fileName == FileName(rule.ruleName.value)
      && rule.rules.Some? && |rule.rules.value| >= 1
      && (forall i :: 0 <= i < |rule.rules.value| ==> Authored(rule.rules.value[i]))
      && rule.actions.Some? && |rule.actions.value| >= 1
      && (forall i :: 0 <= i < |rule.actions.value| ==> rule.actions.value[i].actionType in {"mark", "move"})
  {
    AuthorAnswerShape(lines, 0);
    var name, description, ruleType, fields, actions;
    var next := 0;
    name, next := ReadLine(lines, next);
    if name == None {
      return None;
    }
    description, next := ReadLine(lines, next);
    if description == None {
      return None;
    }
    ruleType, next := ReadLine(lines, next);
    if ruleType == None {
      return None;
    }
    fields, next := PromptForEntries(lines, next);
    if fields == None {
      return None;
    }
    actions, next := PromptForActions(lines, next);
    if actions == None {
      return None;
    }
    var rule := CreateRule(name.value, description.value, ruleType.value, fields.value, actions.value);
    result := Some((rule, FileName(name.value)));
  }
}

=== FILE: schema.dfy ===
/**
 * The records the rule engines exchange: a message as a dictionary of
 * header texts, and the rule file written by the rule generator and read
 * by the engines.
 */
module Schema {
  import opened Wrappers

  type MessageId = string
  type Label = string

  /**
   * A message as the drivers build it: header name to text ("ID", "From",
   * "Subject", "Message", "Received Date/Time"). A header the record does
   * not carry, or whose database column is NULL, is absent.
   */
  type Email = map<string, string>

  /** One entry of a rule file's "rules" list. */
  datatype Condition = Condition(field: string, relation: string, value: string)

  /** One entry of a rule file's "actions" list. */
  datatype Action = Action(actionType: string, actionValue: string)

  /** A rule file as JSON: any of its five top-level keys may be missing. */
  datatype RuleData = RuleData(
    ruleName: Option<string>,
    ruleDescription: Option<string>,
    ruleType: Option<string>,
    rules: Option<seq<Condition>>,
    actions: Option<seq<Action>>)

  const FromField := "From"
  const SubjectField := "Subject"
  const MessageField := "Message"
  const DateField := "Received Date/Time"
  const IdKey := "ID"

  predicate IsStringField(f: string)
  {
    f == FromField || f == SubjectField || f == MessageField
  }

  /** `email.get(name, "")`. */
  function FieldValue(email: Email, name: string): string
  {
    if name in email then email[name] else ""
  }

  /**
   * A rule file as the engines' `RuleCollection` constructors hold it;
   * nothing changes these fields after construction.
   */
  datatype RuleCollection = RuleCollection(
    ruleName: string,
    ruleDescription: string,
    ruleType: string,
    actions: seq<Action>,
    rules: seq<Condition>)

  /** The constructor: a missing top-level key takes its default, a present one is kept. */
  function Load(data: RuleData): (rc: RuleCollection)
    ensures rc.ruleType == (if data.ruleType.Some? then data.ruleType.value else "")
    ensures data.rules.Some? ==> rc.rules == data.rules.value
    ensures data.rules == None ==> rc.rules == []
    ensures data.actions.Some? ==> rc.actions == data.actions.value
    ensures data.actions == None ==> rc.actions == []
  {
    RuleCollection(
      if data.ruleName.Some? then data.ruleName.value else "",
      if data.ruleDescription.Some? then data.ruleDescription.value else "",
      if data.ruleType.Some? then data.ruleType.value else "",
      if data.actions.Some? then data.actions.value else [],
      if data.rules.Some? then data.rules.value else [])
  }
}

=== FILE: text.dfy ===
/**
 * The Python string operations the rule engines rely on: `str.lower`,
 * the `in` substring test, the `<` ordering of strings, `str.split()` with
 * no argument and `str.replace`. Case folding and whitespace are modelled
 * on ASCII.
 */
module Text {

  /** `c.lower()` for one character: A..Z map to a..z, everything else is kept. */
  function LowerChar(c: char): char
  {
    if 'A' <= c <= 'Z' then (c as int + 32) as char else c
  }

  /** `s.lower()`. */
  function Lower(s: string): (r: string)
    ensures |r| == |s|
    ensures forall i :: 0 <= i < |s| ==> r[i] == LowerChar(s[i])
  {
    if s == [] then [] else [LowerChar(s[0])] + Lower(s[1..])
  }

  /** Folding twice is folding once. */
  lemma LowerIdempotent(s: string)
    ensures Lower(Lower(s)) == Lower(s)
  {
  }

  // ---------------------------------------------------------------------------
  // Substrings: Python's `p in s`

  /** `p` occurs in `s` starting at index `i`. */
  predicate OccursAt(s: string, p: string, i: int)
  {
    0 <= i && i + |p| <= |s| && s[i..i + |p|] == p
  }

  predicate StartsWith(s: string, p: string)
  {
    |p| <= |s| && s[..|p|] == p
  }

  /** `p in s`, as a left-to-right scan. */
  predicate Contains(s: string, p: string)
    decreases |s|
  {
    StartsWith(s, p) || (s != [] && Contains(s[1..], p))
  }

  /** The scan finds `p` exactly when `p` occurs somewhere in `s`. */
  lemma {:induction false} ContainsIff(s: string, p: string)
    ensures Contains(s, p) <==> exists i :: OccursAt(s, p, i)
    decreases |s|
  {
    if StartsWith(s, p) {
      assert OccursAt(s, p, 0);
    }
    if s != [] {
      ContainsIff(s[1..], p);
      if Contains(s[1..], p) {
        var i :| OccursAt(s[1..], p, i);
        assert s[1..][i..i + |p|] == s[i + 1..i + 1 + |p|];
        assert OccursAt(s, p, i + 1);
      }
      if i :| OccursAt(s, p, i) {
        if i > 0 {
          assert s[1..][i - 1..i - 1 + |p|] == s[i..i + |p|];
          assert OccursAt(s[1..], p, i - 1);
        } else {
          assert StartsWith(s, p);
        }
      }
    } else {
      if i :| OccursAt(s, p, i) {
        assert i == 0 && p == [];
        assert StartsWith(s, p);
      }
    }
  }

  /** An occurrence at a known index is found by the scan. */
  lemma ContainsAt(s: string, p: string, i: int)
    requires OccursAt(s, p, i)
    ensures Contains(s, p)
  {
    ContainsIff(s, p);
  }

  /** An occurrence up to letter case is an occurrence once both sides are folded. */
  lemma FoldedOccurrence(s: string, p: string, i: int)
    requires 0 <= i && i + |p| <= |s|
    requires forall k :: 0 <= k < |p| ==> LowerChar(s[i + k]) == LowerChar(p[k])
    ensures OccursAt(Lower(s), Lower(p), i)
  {
    var v, o := Lower(s), Lower(p);
    forall k | 0 <= k < |p| ensures v[i..i + |p|][k] == o[k] {
      assert v[i..i + |p|][k] == v[i + k];
    }
  }

  // ---------------------------------------------------------------------------
  // Ordering: Python's `a < b` on str

  /** Code-point lexicographic order; a proper prefix is smaller. */
  predicate LexLess(a: string, b: string)
    decreases |a|
  {
    if a == [] then b != []
    else if b == [] then false
    else if a[0] != b[0] then a[0] < b[0]
    else LexLess(a[1..], b[1..])
  }

  /** For any two strings exactly one of a < b, a == b, b < a holds. */
  lemma {:induction false} LexTrichotomy(a: string, b: string)
    ensures a == b ==> !LexLess(a, b)
    ensures LexLess(a, b) ==> !LexLess(b, a)
    ensures a != b ==> LexLess(a, b) || LexLess(b, a)
    decreases |a|
  {
    if a != [] && b != [] && a[0] == b[0] {
      LexTrichotomy(a[1..], b[1..]);
      if a != b {
        assert a == [a[0]] + a[1..] && b == [b[0]] + b[1..];
        assert a[1..] != b[1..];
      }
    }
  }

  // ---------------------------------------------------------------------------
  // Splitting: Python's `s.split()` with no separator

  /** The ASCII characters `str.isspace` accepts. */
  predicate IsSpace(c: char)
  {
    c == ' ' || '\t' <= c <= '\r' || '\U{001C}' <= c <= '\U{001F}'
  }

  predicate NoSpace(s: string)
  {
    forall i :: 0 <= i < |s| ==> !IsSpace(s[i])
  }

  /** The length of the run of non-space characters at the front of `s`. */
  function TokenEnd(s: string): (k: nat)
    ensures k <= |s|
    ensures NoSpace(s[..k])
    ensures k < |s| ==> IsSpace(s[k])
  {
    if s == [] || IsSpace(s[0]) then 0 else 1 + TokenEnd(s[1..])
  }

  /** `s.split()`: the maximal runs of non-space characters, in order. */
  function Words(s: string): (ws: seq<string>)
    ensures forall i :: 0 <= i < |ws| ==> ws[i] != [] && NoSpace(ws[i])
    decreases |s|
  {
    if s == [] then []
    else if IsSpace(s[0]) then Words(s[1..])
    else
      var k := TokenEnd(s);
      [s[..k]] + Words(s[k..])
  }

  /** Splitting `w + " " + u` gives back the two words. */
  lemma WordsOfPair(w: string, u: string)
    requires w != [] && NoSpace(w) && u != [] && NoSpace(u)
    ensures Words(w + " " + u) == [w, u]
  {
    var s := w + " " + u;
    TokenEndOfWord(w, " " + u);
    assert s == w + (" " + u);
    assert s[..|w|] == w;
    assert s[|w|..] == " " + u;
    assert Words(s) == [w] + Words(" " + u);
    assert (" " + u)[1..] == u;
    assert Words(" " + u) == Words(u);
    TokenEndOfWord(u, []);
    assert u + [] == u;
    assert u[..|u|] == u && u[|u|..] == [];
    assert Words(u) == [u] + Words([]);
  }

  lemma {:induction false} TokenEndOfWord(w: string, rest: string)
    requires NoSpace(w)
    requires rest == [] || IsSpace(rest[0])
    ensures TokenEnd(w + rest) == |w|
    decreases |w|
  {
    if w != [] {
      assert (w + rest)[1..] == w[1..] + rest;
      TokenEndOfWord(w[1..], rest);
    } else {
      assert w + rest == rest;
    }
  }

  /** A text without whitespace is one word. */
  lemma WordsOfWord(w: string)
    requires w != [] && NoSpace(w)
    ensures Words(w) == [w]
  {
    TokenEndOfWord(w, []);
    assert w + [] == w;
    assert w[..|w|] == w && w[|w|..] == [];
  }

  /**
   * A whitespace character separates: the words of `a + [c] + b` are the
   * words of `a` followed by the words of `b`. With `WordsOfWord` this fixes
   * `split()` on every text: its maximal non-space runs, in order.
   */
  lemma {:induction false} WordsSplitAtSpace(a: string, c: char, b: string)
    requires IsSpace(c)
    ensures Words(a + [c] + b) == Words(a) + Words(b)
    decreases |a|
  {
    var s := a + [c] + b;
    if a == [] {
      assert s == [c] + b && s[1..] == b;
    } else if IsSpace(a[0]) {
      assert s[0] == a[0] && s[1..] == a[1..] + [c] + b;
      WordsSplitAtSpace(a[1..], c, b);
    } else {
      assert s == a + ([c] + b);
      TokenEndPrefix(a, [c] + b);
      var k := TokenEnd(a);
      assert s[..k] == a[..k];
      assert s[k..] == a[k..] + [c] + b;
      WordsSplitAtSpace(a[k..], c, b);
    }
  }

  /** The run at the front of `a` ends where it did once whitespace follows `a`. */
  lemma {:induction false} TokenEndPrefix(a: string, rest: string)
    requires rest == [] || IsSpace(rest[0])
    ensures TokenEnd(a + rest) == TokenEnd(a)
    decreases |a|
  {
    if a != [] {
      assert (a + rest)[0] == a[0] && (a + rest)[1..] == a[1..] + rest;
      TokenEndPrefix(a[1..], rest);
    } else {
      assert a + rest == rest;
    }
  }

  // ---------------------------------------------------------------------------
  // Replacing: Python's `s.replace(pat, rep)` for a non-empty pattern

  /** Left-to-right, non-overlapping replacement of every occurrence of `pat`. */
  function ReplaceAll(s: string, pat: string, rep: string): string
    requires pat != []
    decreases |s|
  {
    if |s| < |pat| then s
    else if s[..|pat|] == pat then rep + ReplaceAll(s[|pat|..], pat, rep)
    else [s[0]] + ReplaceAll(s[1..], pat, rep)
  }

  /** Replacing a pattern that does not occur leaves the string as it is. */
  lemma {:induction false} ReplaceAbsent(s: string, pat: string, rep: string)
    requires pat != [] && !Contains(s, pat)
    ensures ReplaceAll(s, pat, rep) == s
    decreases |s|
  {
    if |s| >= |pat| {
      ReplaceAbsent(s[1..], pat, rep);
      assert s == [s[0]] + s[1..];
    }
  }

  /**
   * Removing every `pat` from `s + pat` gives back `s` when the second
   * character of `pat` occurs neither in `s` nor as the first character of
   * `pat`: no occurrence can start inside `s`.
   */
  lemma {:induction false} RemoveSuffix(s: string, pat: string)
    requires |pat| >= 2 && pat[0] != pat[1]
    requires forall i :: 0 <= i < |s| ==> s[i] != pat[1]
    ensures ReplaceAll(s + pat, pat, "") == s
    decreases |s|
  {
    var sp := s + pat;
    if s == [] {
      assert sp == pat && sp[..|pat|] == pat;
      assert sp[|pat|..] == [];
    } else {
      assert sp[..|pat|][1] == sp[1] != pat[1];
      assert sp[1..] == s[1..] + pat;
      RemoveSuffix(s[1..], pat);
      assert s == [s[0]] + s[1..];
    }
  }

  /** Replacing one character by another works position by position. */
  lemma {:induction false} ReplaceCharAt(s: string, a: char, b: char)
    ensures |ReplaceAll(s, [a], [b])| == |s|
    ensures forall i :: 0 <= i < |s| ==>
              ReplaceAll(s, [a], [b])[i] == if s[i] == a then b else s[i]
    decreases |s|
  {
    if s != [] {
      ReplaceCharAt(s[1..], a, b);
      assert s[..1] == [s[0]];
    }
  }
}

=== FILE: variants.dfy ===
/**
 * How the three engines and the rule generator fit together, and where
 * they part ways: the generator's records load unchanged, its "does not
 * equal" is a predicate no engine knows, and the engines disagree on
 * letter case, on empty fields and on the rule type.
 */
module Variants {
  import opened Wrappers
  import opened Text
  import opened Numerals
  import opened Schema
  import NewFetch
  import RuleEngine
  import GmailOps
  import RuleGen

  /** A generated rule loads with every field it was created with. */
  lemma CreatedRuleLoads(name: string, description: string, ruleType: string,
                         fields: seq<Condition>, actions: seq<Action>)
    ensures Load(RuleGen.CreateRule(name, description, ruleType, fields, actions))
         == RuleCollection(name, description, ruleType, actions, fields)
  {
  }

  /**
   * A generated date operand with an integer count is the threshold the
   * newest engine expects: N days, or 30·N days, before now.
   */
  lemma GeneratedOperandThreshold(n: int, now: int)
    ensures NewFetch.Threshold(RuleGen.DateOperand(IntText(n), RuleGen.TimeUnits[0]), now)
         == Ok(Some(now - n * NewFetch.MicrosPerDay))
    ensures NewFetch.Threshold(RuleGen.DateOperand(IntText(n), RuleGen.TimeUnits[1]), now)
         == Ok(Some(now - n * 30 * NewFetch.MicrosPerDay))
  {
    RuleGen.DateOperandUnits(IntText(n));
    NewFetch.ThresholdOfOperand(n, now);
  }

  /**
   * The generator does not check the count: "x D" is accepted when the rule
   * is written, and the engine's `int()` raises on it when a parsed date is
   * compared.
   */
  lemma UncheckedCount(now: int)
    ensures RuleGen.DateOperand("x", RuleGen.TimeUnits[0]) == "x D"
    ensures NewFetch.Threshold("x D", now) == Err(NewFetch.ValueError("x"))
  {
    WordsOfPair("x", "D");
    assert "x" + " " + "D" == "x D";
  }

  /**
   * "does not equal", which the generator offers for string fields, is not
   * one of the engines' predicates: such a rule never matches, in either engine.
   */
  lemma DoesNotEqualNeverMatches(field: string, value: string, email: Email, now: int)
    requires field in RuleGen.AllowedPredicates && field != DateField
    ensures "does not equal" in RuleGen.AllowedPredicates[field]
    ensures NewFetch.EvaluateRule(Condition(field, "does not equal", value), email, now) == Ok(false)
    ensures !RuleEngine.EvaluateRule(Condition(field, "does not equal", value), email)
  {
    assert RuleGen.AllowedPredicates[field] == RuleGen.StringPredicates;
    assert RuleGen.StringPredicates[3] == "does not equal";
  }

  /** Every predicate the generator offers for the date field is one the newest engine reads. */
  lemma GeneratedDatePredicatesKnown(relation: string)
    requires relation in RuleGen.AllowedPredicates[DateField]
    ensures relation == "less than" || relation == "greater than"
  {
  }

  lemma ImportantFolded()
    ensures Contains(Lower("Important email"), Lower("important"))
  {
    var s, p := "Important email", "important";
    assert s[1..9] == p[1..9];
    forall k | 0 <= k < |p| ensures LowerChar(s[k]) == LowerChar(p[k]) {
      if k > 0 {
        assert s[k] == s[1..9][k - 1];
      }
    }
    FoldedOccurrence(s, p, 0);
    ContainsAt(Lower(s), Lower(p), 0);
  }

  lemma ImportantExact()
    ensures !Contains("Important email", "important")
  {
    var s, p := "Important email", "important";
    assert s[0] == 'I' && s[1] == 'm' && s[2] == 'p' && s[3] == 'o' && s[4] == 'r' && s[5] == 't' && s[6] == 'a';
    forall i | 0 <= i ensures !OccursAt(s, p, i) {
      if i + |p| <= |s| {
        assert s[i..i + |p|][0] == s[i];
      }
    }
    ContainsIff(s, p);
  }

  lemma ExampleFolded()
    ensures Contains(Lower("user@example.com"), Lower("example.com"))
  {
    var s, p := "user@example.com", "example.com";
    assert s[5..16] == p;
    forall k | 0 <= k < |p| ensures LowerChar(s[5 + k]) == LowerChar(p[k]) {
      assert s[5 + k] == s[5..16][k];
    }
    FoldedOccurrence(s, p, 5);
    ContainsAt(Lower(s), Lower(p), 5);
  }

  lemma FoldedSubject(email: Email, now: int)
    requires FieldValue(email, SubjectField) == "Important email"
    ensures NewFetch.EvaluateRule(Condition(SubjectField, "contains", "important"), email, now) == Ok(true)
  {
    ImportantFolded();
    NewFetch.StringFieldRule(Condition(SubjectField, "contains", "important"), email, now);
  }

  lemma ExactSubject(email: Email)
    requires FieldValue(email, SubjectField) == "Important email"
    ensures !RuleEngine.EvaluateRule(Condition(SubjectField, "contains", "important"), email)
  {
    ImportantExact();
  }

  lemma FoldedFrom(email: Email, now: int)
    requires FieldValue(email, FromField) == "user@example.com"
    ensures NewFetch.EvaluateRule(Condition(FromField, "contains", "example.com"), email, now) == Ok(true)
  {
    ExampleFolded();
    NewFetch.StringFieldRule(Condition(FromField, "contains", "example.com"), email, now);
  }

  /**
   * Letter case: "important" is in the subject "Important email" for the
   * newest engine and not for the earlier one.
   */
  lemma CaseFoldingDiffers(now: int)
    ensures NewFetch.EvaluateRule(Condition(SubjectField, "contains", "important"),
                                  map[SubjectField := "Important email"], now) == Ok(true)
    ensures !RuleEngine.EvaluateRule(Condition(SubjectField, "contains", "important"),
                                     map[SubjectField := "Important email"])
  {
    var email := map[SubjectField := "Important email"];
    assert FieldValue(email, SubjectField) == "Important email";
    FoldedSubject(email, now);
    ExactSubject(email);
  }

  /**
   * An empty or missing string field: the newest engine never matches it,
   * while the earlier one reads it as "" and so `does not contain` holds
   * for every non-empty operand.
   */
  lemma EmptyFieldDiffers(field: string, value: string, email: Email, now: int)
    requires IsStringField(field) && field !in email && value != ""
    ensures NewFetch.EvaluateRule(Condition(field, "does not contain", value), email, now) == Ok(false)
    ensures RuleEngine.EvaluateRule(Condition(field, "does not contain", value), email)
  {
    ContainsIff("", value);
    assert forall i :: !OccursAt("", value, i);
  }

  lemma RuleTypeFolds()
    ensures Lower("All") == "all" && Lower("all") == "all"
  {
    assert |Lower("All")| == 3 && |Lower("all")| == 3;
    assert Lower("All")[0] == LowerChar('A') == 'a' && Lower("all")[0] == LowerChar('a') == 'a';
    assert Lower("All")[1] == LowerChar('l') == 'l' && Lower("all")[1] == LowerChar('l') == 'l';
    assert Lower("All")[2] == LowerChar('l') == 'l' && Lower("all")[2] == LowerChar('l') == 'l';
  }

  /** The two rules of the "All" collection test in testing.py. */
  const TestRules := [Condition(FromField, "contains", "example.com"), Condition(SubjectField, "contains", "important")]

  /** Its message. */
  const TestEmail: Email := map[FromField := "user@example.com", SubjectField := "Important email"]

  /** The "All" collection test holds for the newest engine. */
  lemma CollectionTestFolded(rc: RuleCollection, email: Email, now: int)
    requires rc == Load(RuleData(Some("Test Rule"), None, Some("All"), Some(TestRules), None))
    requires email == TestEmail
    ensures NewFetch.Matches(rc, email, now) == Ok(true)
  {
    assert rc.ruleType == "All" && rc.rules == TestRules;
    assert FieldValue(email, FromField) == "user@example.com";
    assert FieldValue(email, SubjectField) == "Important email";
    FoldedFrom(email, now);
    FoldedSubject(email, now);
    BothRulesHold(rc, email, now);
  }

  lemma BothRulesHold(rc: RuleCollection, email: Email, now: int)
    requires rc.ruleType == "All" && |rc.rules| == 2
    requires NewFetch.EvaluateRule(rc.rules[0], email, now) == Ok(true)
    requires NewFetch.EvaluateRule(rc.rules[1], email, now) == Ok(true)
    ensures NewFetch.Matches(rc, email, now) == Ok(true)
  {
    assert NewFetch.SelectsAll(rc.ruleType) by { RuleTypeFolds(); }
    var rest := rc.rules[1..];
    assert rest[0] == rc.rules[1] && rest[1..] == [];
    assert NewFetch.AllHold(rest, email, now) == Ok(true);
  }

  /** The earlier engine fails it: its `contains` keeps letter case. */
  lemma CollectionTestExact(rc: RuleCollection, email: Email)
    requires rc == Load(RuleData(Some("Test Rule"), None, Some("All"), Some(TestRules), None))
    requires email == TestEmail
    ensures !RuleEngine.Matches(rc, email)
  {
    ExactSubject(email);
    RuleEngine.AllAnyQuantifiers(rc.rules, email);
  }

  /**
   * The rule type: "all" is conjunction only for newfetch.py; ruleengine.py
   * reads it as disjunction, and gmailops.py as no match at all.
   */
  lemma RuleTypeDiffers(email: Email, now: int)
    ensures NewFetch.Matches(RuleCollection("", "", "all", [], []), email, now) == Ok(true)
    ensures !RuleEngine.Matches(RuleCollection("", "", "all", [], []), email)
    ensures !GmailOps.Evaluate(GmailOps.Collection([], "all"), email)
  {
    RuleTypeFolds();
  }

  /**
   * The two earlier engines agree on "All" and "Any"; for any other rule
   * type they differ exactly when some rule holds.
   */
  lemma EarlierEnginesAgree(rc: RuleCollection, email: Email)
    ensures rc.ruleType in {"All", "Any"} ==>
      GmailOps.Evaluate(GmailOps.Collection(rc.rules, rc.ruleType), email) == RuleEngine.Matches(rc, email)
    ensures rc.ruleType !in {"All", "Any"} ==>
      (GmailOps.Evaluate(GmailOps.Collection(rc.rules, rc.ruleType), email) != RuleEngine.Matches(rc, email)
       <==> exists i :: 0 <= i < |rc.rules| && RuleEngine.EvaluateRule(rc.rules[i], email))
  {
    RuleEngine.AllAnyQuantifiers(rc.rules, email);
  }
}

=== FILE: wrappers.dfy ===
/** Failure-carrying values shared by every module of the model. */
module Wrappers {

  datatype Option<+T> = None | Some(value: T)

  /** The outcome of a Python call: a value, or the exception it raised. */
  datatype Result<+T, +E> = Ok(value: T) | Err(error: E)
}
